=== FILE: README.md ===
# syntax-check.php in Dafny

`syntax-check.php` walks one or more directory trees. It picks out the files
whose names pass a set of include/exclude patterns and carry one of a mode's
suffixes. It runs an external lint command on each of them, and it reports
the outcome as a JUnit test suite. It can also write the lint output of each
file into an output directory. This project models the deterministic core
of that script and proves what it promises.

- `Modes` holds the table of modes (`php`, `php_noshort`, `javascript`,
  `perl`) with their suffixes, lint command lines and accepted exit codes.
  It also holds the pass criterion `$status >> 8 in return_codes_ok`, both as
  written and as intended (see Findings).
- `Config` holds `$conf` and its defaults. It models `copyArrayValue` (a
  loop), the `switch` over the options in their `getopt` order, the
  rejection of an unknown mode or `--help`, and the fallback to the mode's
  lint command, suffixes and exit codes.
- `Filter` holds the selection part of `processFile`. That is the two
  pattern loops (a method) and the suffix rule `/\.([^.]+)$/` applied to the
  basename.
- `Runner` holds `processFile`, `run` and the root loop. They are methods of a
  class `Checker` whose fields are the script's globals `$results` and
  `$recentDir`. Each method is proved against a function on values: `Walk`
  for one tree and `RunRoots` for the list of roots. The lint run, the JSON
  wrapper of `preProcess`/`postProcess` and the directory listing are the
  fields of an `Env` value. Each recorded result carries `status`, the pass
  flag line 187 computes as written, and beside it `passed`, the flag line
  187 evidently intends (see Findings); the reports read `passed`.
- `Report` holds `generateXML` as a loop that builds a `Suite` record
  (attributes and test cases, not XML text), both as written (it stops at
  the first failed file, see Findings) and as intended. It also holds the test-case
  name and the artefact file names of `generateOutputDir`.
- `SyntaxCheck` holds the main program, with `Outcome` as the function that
  specifies it.
- `Text`, `Paths`, `Seqs`, `Wrappers` and `Errors` provide the PHP string
  functions used (`trim`, `strtolower`, `strtr`, `basename`, `dirname`),
  sequence facts, `Option`/`Result`, and the fatal conditions.

Every `die`/`errorAndExit` reached before the reports are written becomes an
`Err` of `Errors.Error`. The run stops there, with no report, and
`Errors.ExitStatus` gives the exit status it ends with. The `die` calls met
while the reports are written (lines 249-255, 264-265, 277-278 and 445) are
file I/O and are left out.

## Model

| member | source | states |
|---|---|---|
| Text.Trim | syntax-check.php:363 | `trim` never lengthens its input, its result neither starts nor ends with one of " \t\n\r\0\x0B", and it is empty iff every character was one of them |
| Text.TrimIsSlice | syntax-check.php:363 | `trim` removes a run of those characters at the front and one at the back and nothing else: the result is the slice of the input between them |
| Text.TrimKeeps | syntax-check.php:363 | a string that neither starts nor ends with a trim character is its own `trim` |
| Text.IsBlank | syntax-check.php:316 | `/^\s*$/` and `trim` agree except on form feed, NUL and vertical tab: a blank entry without form feed trims to nothing, a non-blank one without NUL or vertical tab does not |
| Text.TrimIdempotent | syntax-check.php:318 | a trimmed entry is left as it is by a second `trim` |
| Text.Lower | syntax-check.php:220 | `strtolower` (ASCII): same length, no upper-case letter left, other characters unchanged, each upper-case letter moved by 32 |
| Text.Translate | syntax-check.php:78 | `strtr` with one character: same length, every `from` replaced by `to`, all else unchanged, no `from` left |
| Text.TranslateInjective | syntax-check.php:74-79 | replacing a character by one absent from both inputs keeps distinct inputs distinct |
| Paths.Basename | syntax-check.php:118 | `basename` holds no '/' and is no longer than the path |
| Paths.Dirname | syntax-check.php:157-159 | `dirname` of a non-empty path is non-empty |
| Paths.SplitPath | syntax-check.php:118 | for `d/b` with `b` free of '/', `dirname` gives back `d` and `basename` gives back `b` |
| Paths.Suffix | syntax-check.php:142-149 | the capture of `/\.([^.]+)$/`: the non-empty, dot-free text after the last dot; none iff the name has no dot or ends in one |
| Modes.Lookup | syntax-check.php:24-45 | the mode table: a definition exists iff the name is one of the four modes |
| Modes.ExitCode | syntax-check.php:187 | `$status >> 8` is the `c` with 256·c ≤ status < 256·c + 256: an arithmetic shift, also for negative values |
| Modes.Passes | syntax-check.php:187 | as written, a lint run passes iff the value `pclose` returned lies in the block of 256 values of an accepted code |
| Modes.ExitCodeOfWaitStatus | syntax-check.php:185-187 | the premise line 187 is written for: on a wait status, `$status >> 8` recovers the exit code whatever the low eight bits |
| Modes.ShiftedExitCodeAlwaysPasses | syntax-check.php:185-187 | as written, every exit code 0-255 that `pclose` returns passes in every mode; `php -l`'s 255 passes in mode `php`, though the intended criterion rejects it (see Findings) |
| Modes.AcceptsOnWaitStatus | syntax-check.php:185-187 | the intended criterion `Accepts`, the exit code itself in the accepted list, agrees with the shifted test on every wait status that exit code gives |
| Modes.IntendedAcceptance | syntax-check.php:24-45 | under `Accepts`, the intended criterion that the runner uses, `javascript` accepts exit codes 0 and 1 and every other mode 0 only; a failed `pclose` (-1) never passes |
| Modes.IntendedStricter | syntax-check.php:24-45 | in every registered mode a value the intended criterion accepts also passes the shifted test, so the intended criterion is the stricter |
| Modes.ModeAcceptance | syntax-check.php:24-45 | as written, a shifted value of 0 passes in every mode and 1 also in `javascript`; a failed `pclose` (-1) never passes |
| Modes.ModeDefaultsUsable | syntax-check.php:24-45 | every mode's default lint command is truthy and its suffix list is non-empty |
| Config.CleanList | syntax-check.php:312-321 | cleaning an array never returns more entries than it was given |
| Config.CopyArrayValue | syntax-check.php:309-331 | the loop builds exactly the cleaned list; a scalar yields at most one entry |
| Config.CleanListAppend | syntax-check.php:314-320 | cleaning works piece by piece, so the relative order of kept entries is preserved |
| Config.CleanListEmpty | syntax-check.php:316 | the cleaned array is empty iff every entry is whitespace only |
| Config.CleanListKeeps | syntax-check.php:316-318 | every kept entry is the trimmed text of a non-blank input entry, and is trimmed already |
| Config.ScalarValue | syntax-check.php:361-364 | the trimmed value of a string option is no longer than the given text, and equal to it when it has no surrounding trim characters |
| Config.ListValue | syntax-check.php:374-385 | a list option given once holds at most one entry, one given as an array at most as many entries as the array |
| Config.ListTrimmed | syntax-check.php:316-318 | every entry a list option stores is trimmed already |
| Config.ApplyOption | syntax-check.php:365-410 | one option fails iff it is `-m`/`--mode` with an unknown mode (`UnknownMode` naming it) or `-h`/`--help` (`HelpRequested`). A successful one sets exactly the field of its case (the trimmed scalar, the cleaned list, or `quiet`), leaves every other field and the exit codes as they were, and keeps a known mode known. A key without a case leaves `$conf` unchanged |
| Config.LintShortKeyIgnored | syntax-check.php:344-389 | `-k`, the short key declared for `--lint`, has no case in the `switch` (which handles `l`), so it leaves `$conf` unchanged |
| Config.ApplyAll | syntax-check.php:359-411 | the option loop fails only with an unknown mode or a help request |
| Config.ApplyAllKeepsInvariants | syntax-check.php:359-411 | after the whole option loop the mode is still a known one and the exit codes are untouched |
| Config.Switch | syntax-check.php:365-410 | the `switch` statement computes exactly one step of the option loop |
| Config.ParseOptions | syntax-check.php:359-411 | the option loop yields `$conf` as the options applied in order from the defaults, stopping at the first fatal one, with a known mode |
| Config.ErrStops | syntax-check.php:366-371 | after a fatal option no later option changes the outcome |
| Config.Resolve | syntax-check.php:413-422 | a falsy lint falls back to the mode's command, an empty suffix list to the mode's suffixes, the exit codes always come from the mode, nothing else changes, and the result has a truthy lint and some suffix |
| Config.ResolveIdempotent | syntax-check.php:413-422 | filling in the defaults a second time changes nothing |
| Filter.PatternSkip | syntax-check.php:121-139 | the path is skipped iff some exclude pattern matches and no include pattern does |
| Filter.SelectedIff | syntax-check.php:116-153 | a path is selected iff the patterns let it through and its basename ends in a dot and non-empty non-dot text that is a configured suffix |
| Filter.SuffixAt | syntax-check.php:143-149 | the capture starts right after the last dot of the name |
| Filter.SelectedSuffix | syntax-check.php:141-153 | a suffix `processFile` goes on with is a configured, non-empty, dot-free suffix of a path the patterns let through |
| Filter.PatternOrderIrrelevant | syntax-check.php:121-139 | two pattern lists holding the same patterns select the same paths, whatever their order and repetitions |
| Runner.SecureBase64 | syntax-check.php:74-79 | the encoding keeps its length and holds no '/' |
| Runner.SecureBase64Injective | syntax-check.php:74-79 | distinct base64 texts (which never hold '_') give distinct wrapper name parts |
| Runner.LintTarget | syntax-check.php:172 | the lint command is given a file other than the path only for a JSON file, and then it is the wrapper `preProcess` wrote |
| Runner.LintStep | syntax-check.php:166-195 | a path that reaches the lint stage is either recorded or aborts the run, and is never silently dropped; the record carries line 187's `status` as written and the intended flag beside it |
| Runner.StepSkipsUnselected | syntax-check.php:116-153 | `processFile` returns early for a path iff the path is not selected |
| Runner.LintStepMeaning | syntax-check.php:166-195 | a recorded result names the original path (not the JSON wrapper) and its basename; its lint run completed; its `status` is line 187 as written, the shifted value `pclose` returned in the mode's codes; its intended flag `passed` says whether the unshifted value is (see Findings); a JSON file is recorded only after its wrapper was written and removed |
| Runner.PerformTest | syntax-check.php:166-195 | the preProcess, lint and postProcess sequence stops at the first failure and never skips; it records line 187's shifted `status` and the intended flag (see Findings) |
| Runner.SelectedPaths | syntax-check.php:116-153 | the selected paths are paths of the walk, each of them selected |
| Runner.VisitedAreSelected | syntax-check.php:116-153 | the paths `processFile` goes on to lint are exactly the selected ones, in order |
| Runner.Walk | syntax-check.php:63-72 | one walk records at most one result per entry |
| Runner.RunRoots | syntax-check.php:427-434 | the root loop records at most one result per entry of the roots it walks |
| Runner.WalkVisits | syntax-check.php:63-72 | `run` records one result per visited path in traversal order. If the run is cut short, it records exactly the results before the failing path. The last visited path is tracked, and there is none iff nothing was visited |
| Runner.WalkStops | syntax-check.php:174-183 | after a fatal lint failure no later entry is looked at |
| Runner.RootsStop | syntax-check.php:427-434 | after a fatal condition no later root is looked at |
| Runner.FirstBadRootAborts | syntax-check.php:427-434 | the first root that is not a directory aborts the run after the roots before it were walked, whatever follows it |
| Runner.RootsVisit | syntax-check.php:427-434 | a complete run visited only directories and recorded exactly the visited entries of all roots, in order |
| Runner.RootsFromOwnPath | syntax-check.php:167-170 | every recorded result is what checking its own path produced |
| Runner.RunRecordsSelected | syntax-check.php:116-196 | a complete run records exactly the selected entries of all the roots, in traversal order |
| Runner.Checker.constructor | syntax-check.php:60-61 | `$results` starts empty and `$recentDir` starts as "" |
| Runner.Checker.ProcessFile | syntax-check.php:116-196 | a skipped path changes neither `$results` nor `$recentDir`. A selected path moves `$recentDir` to its `dirname`, and then either appends exactly its result or reports the fatal condition |
| Runner.Checker.Run | syntax-check.php:63-72 | `$results` grows by exactly the walk's results. `$recentDir` is the `dirname` of the last selected path, or unchanged if none was selected. The fatal condition is the walk's |
| Runner.Checker.CheckRoots | syntax-check.php:425-434 | the root loop leaves `$results`, `$recentDir` and the fatal condition as the per-root walks in order determine them |
| Report.DropDotDash | syntax-check.php:221 | the input is the result with or without ".-" in front, and the result differs from the input iff the input starts with ".-" |
| Report.CaseName | syntax-check.php:220-221 | the test-case name holds no '/' and no upper-case letter. It is two characters shorter than the file name iff that starts with "./" or ".-", and otherwise as long. For a name without '/' it is the matching tail of the lower-cased name |
| Report.CaseNameOfBasename | syntax-check.php:218-221 | for a basename not starting with ".-" the test-case name is just the lower-cased basename |
| Report.CaseFor | syntax-check.php:212-229 | the test case of a result points at its path, carries its case name, and has a failure child of type "PHP_Syntax_Error" holding its lint output iff it failed (as intended; see Findings) |
| Report.Cases | syntax-check.php:211-232 | one test case per result, in order, each naming the result's file |
| Report.FailuresCounted | syntax-check.php:214-217 | the failure count equals the number of test cases with a failure child, is at most the number of tests, and is 0 iff every result passed |
| Report.GenerateXml | syntax-check.php:198-241 | the intended `generateXML` (see Findings): the suite is named mode + "SyntaxTest", has 0 errors, `tests` = number of results, `failures` = number of failed results, and one case per result in order |
| Report.GenerateXmlAsWritten | syntax-check.php:198-241 | `generateXML` as written stops with a fatal error (the undefined `DOMElement::addText`) iff some result failed; only a run where every file passed yields its suite, with 0 failures |
| Report.OneFailedFile | syntax-check.php:224-229 | for one file whose `pclose` returned -1 the failure count is 1, so `GenerateXmlAsWritten` errs on it, and the intended suite holds one case with a failure child carrying the lint output |
| Report.RemoveDotSlash | syntax-check.php:262 | removing "./" never lengthens the name, and leaves a name without '/' unchanged |
| Report.RemoveDotSlashKeeps | syntax-check.php:262 | a name holding no "./" is kept as it is; with RemoveDotSlashAt this fixes the rewrite of every name |
| Report.RemoveDotSlashAt | syntax-check.php:262 | each "./" is removed, and the text on either side of it is rewritten on its own |
| Report.ReplaceSlash | syntax-check.php:263 | after the rewrite no '/' is left, the name is never shorter, and a name without '/' is unchanged |
| Report.ReplaceSlashAt | syntax-check.php:263 | each '/' becomes "_DIR_", and the text on either side of it is rewritten on its own |
| Report.ArtefactName | syntax-check.php:261-263 | an output file name holds no '/', and a path without '/' just gets ".txt" appended |
| Report.ArtefactNameShape | syntax-check.php:261-263 | each output file name is the rewritten path followed by ".txt", and holds no '/' |
| Report.OutputFiles | syntax-check.php:257-265 | one write per result, in order, named by its artefact name and holding its lint output (two paths with the same artefact name write the same file, the later one last) |
| SyntaxCheck.Outcome | syntax-check.php:413-434 | a finished run has a known mode, a truthy lint command, some suffix and the mode's exit codes, and at most one result per walked entry |
| SyntaxCheck.OutcomeRecordsSelected | syntax-check.php:413-434 | a finished run used a known mode and that mode's exit codes. It linted exactly the selected entries of all roots, in order. Each result's `status` is line 187's shifted test on its own lint run, as written, and its intended flag says whether that run's exit code is accepted |
| SyntaxCheck.IntendedFlagStricter | syntax-check.php:185-187 | in a finished run every result the intended flag passes also has `status` 1; the two flags differ only where the shifted test lets a rejected exit code through |
| SyntaxCheck.Execute | syntax-check.php:339-453 | the main program fails iff the option loop or the root loop meets a fatal condition, with that error. Otherwise it reports the count, the suite of `generateXML` over the results, and the per-file outputs exactly when `outputDir` is truthy. The suite is the one of the intended `generateXML` (see Findings) |
| Errors.ExitStatus | syntax-check.php:303-307 | as written, a fatal condition ends the run with status 0 exactly when it is reported by `die` (the JSON wrapper, the lint run); every `errorAndExit` condition gives 1 and the undefined-method fatal error 255 |
| Errors.LintFailureExitsZero | syntax-check.php:174-178 | a lint command that cannot be started ends the script with exit status 0, while an unknown mode ends it with 1 |
| Errors.IntendedExitStatus | syntax-check.php:303-307 | every fatal condition ends the run with a non-zero status; the `die` conditions end it with 1, and the others keep their status |

## Left out

- Command-line parsing by `getopt` (lines 339-358) is not modelled. The options arrive as the (key, value) list it returns, in its order, and the `getopt` failure path (`helpAndExit` on `false`) is not modelled.
- `-k` is declared as the short key of `--lint`, but the `switch` handles `l`. `-k` is therefore ignored, and the model keeps that.
- A short key and its long form (`-e` and `--exclude`, say) reach the `switch` as two separate options. The later one replaces the list the earlier one set; lists are not merged across the two spellings.
- The artefact name removes every "./" in the path, not just a leading one, because `preg_replace` replaces all matches. The model follows the code. A removal can bring a new "./" together; it is not removed again.
- Directory walking (`RecursiveIteratorIterator` over `RecursiveDirectoryIterator`) is the `listing` field of `Env`. It is an abstract sequence of entries per root, and `None` stands for "not a directory". Nothing filters out directories or `.`/`..` entries, so a directory named `lib.php` is selected, as in the script.
- An unreadable subdirectory makes `RecursiveDirectoryIterator` throw `UnexpectedValueException` partway through a walk, which ends the script with an uncaught exception. `listing` gives a complete entry list per root and cannot express that.
- `preg_match` with user patterns is the `matches` field of `Env`. The PCRE engine is foreign code.
- `popen`/`stream_get_contents`/`pclose` are the `lint` field of `Env`. It gives back the value `pclose` returns and the output, or the failure of the first or second call. That value is taken to be what PHP's `pclose` gives on POSIX systems: the command's exit code when it exits normally, the raw wait status (below 256, such as 9 for SIGKILL) when a signal ended it, and -1 when `pclose` fails. As written, a lint command killed by a signal therefore passes too (`9 >> 8` is 0). PHP's stream layer is not part of this model.
- Report.GenerateXml, Report.GenerateXmlAsWritten: both read the intended flag `passed`, while the script's `generateXML` reads `$result['status']`, the shifted flag `status`. This keeps the `addText` finding apart from the line 187 one. On the shifted flag the fatal call is reached only for a result whose `pclose` returned a negative value.
- `preProcess`/`postProcess` file I/O is the `wrapperWritten`, `wrapperFile` and `wrapperRemoved` fields of `Env`. The temporary name (process id, time, `md5`, `base64_encode`) and the wrapper's contents are not modelled. Line 95 concatenates the array that `file()` returns, so the wrapper does not hold the JSON text. Only "a wrapper is used iff the suffix is `json`" and the `/`→`_` step of `secure_base64_encode` are modelled.
- Elapsed times, the suite `time` attribute and the `strftime` timestamp are left out. They are clock readings and floating point.
- DOM building and XML serialisation are left out: the suite is a record of its attributes and test cases. The HTML index of `generateOutputDir`, `mkdir`/`chdir`/`file_put_contents`, writing the XML to `outputFile` or to standard output, and every `echo`/`print`/`printf` progress line are I/O. `Reports.checked` is the count line 438 prints, returned whether or not `quiet` is set.
- The texts of the `die`/`errorAndExit` messages are not modelled, and neither is the output PHP prints for its own fatal error. Line 177 interpolates the undefined `$lint`; only the kind of error and the command and path involved are kept.
- `in_array($suffix, ...)` at line 150 and `$recentDir != dirname(...)` at line 157 use PHP's loose comparison, under which two numeric strings such as "1" and "01" compare equal. Both are modelled as exact string equality.
- Text.Lower: `strtolower` is modelled for ASCII only; bytes above 127 are kept as they are, as in the "C" locale.
- Paths.Dirname: models POSIX `dirname` on '/'-separated paths; the Windows separator rules are not modelled.
- The character classes are those of PHP 5.3, the last version that accepts the call-time pass-by-reference on line 70. Under PCRE of that age `\s` does not include the vertical tab, while `trim` removes it.
- A `--mode` given more than once arrives as an array. `array_key_exists` in PHP 5.3 warns that its first argument is neither a string nor an integer and returns false, so the script reports the unknown mode "Array" (the array converted to a string), and the model does the same (`ScalarValue`). Array values of other scalar options are stored as "Array".
- A PHP `false` in `lint`, `outputFile` and `outputDir` is modelled as "". PHP treats the two the same in every condition the script evaluates on these fields.

## Findings

| source | as written | input that shows it | evidently intended | confidence | as-written member | corrected member |
|---|---|---|---|---|---|---|
| syntax-check.php:227 | `$xml_failure->addText($result['info'])` calls a method `DOMElement` does not have, so PHP stops with a fatal error at the first failed file: no XML reaches standard output or `outputFile`, and `generateOutputDir` never runs | mode `php`, one root listing `src/b.php`, and a lint run for which `pclose` returns -1 (`-1 >> 8` is -1, not accepted) | the `failure` element holds the lint output as its text and the suite is written out | high (not executed) | Report.GenerateXmlAsWritten | Report.GenerateXml |
| syntax-check.php:177 | `die("ERROR: can't execute ...")` prints its message and exits with status 0, as do the other `die` calls of lines 93, 98, 112 and 182 | a selected file for which `popen` fails | a non-zero exit status, as `errorAndExit` gives | medium (not executed) | Errors.LintFailureExitsZero | Errors.IntendedExitStatus |
| syntax-check.php:187 | `pclose` already returns the exit code (0-255) of a command that exits normally, so `$status >> 8` is 0 for every such run and every mode records it as passed; a file fails only when `pclose` returns -1 | mode `php` and a file with a syntax error, for which `php -l` exits with 255: `pclose` returns 255, `255 >> 8` is 0, and 0 is accepted | the exit code itself is compared with `return_codes_ok`, so 255 fails and `javascript`'s 1 passes | medium (not executed; rests on PHP's `pclose` returning `WEXITSTATUS`) | Modes.ShiftedExitCodeAlwaysPasses | Modes.IntendedAcceptance |

=== FILE: Config.dfy ===
/** The `$conf` array: its initial values, the option loop of the main
    program (`copyArrayValue` and the `switch` on each option) and the
    fallback to the mode's defaults. Parsing the command line itself
    (`getopt`) is not modelled: the options arrive as the list of
    (key, value) pairs `getopt` returns, in its order. */
module Config {

  import opened Wrappers
  import opened Errors
  import opened Text
  import opened Modes
  import opened Seqs

  /** What `getopt` returns for one key: a string, or an array of strings
      when the same key was given more than once. */
  datatype OptValue = Single(text: string) | Many(texts: seq<string>)

  /** `$conf`. A PHP `false` for `lint`, `outputFile` and `outputDir` is
      modelled as "", which PHP treats the same way in every test made on it. */
  datatype Conf = Conf(
    mode: string,
    excludes: seq<string>,
    includes: seq<string>,
    suffixes: seq<string>,
    lint: string,
    returnCodesOk: seq<int>,
    outputFile: string,
    outputDir: string,
    paths: seq<string>,
    quiet: bool)

  /** The initial `$conf` of lines 47-58. */
  const Defaults: Conf := Conf("php", [], [], [], "", [], "", "", ["."], false)

  /** PHP's falsy strings. */
  predicate Falsy(s: string)
  {
    s == "" || s == "0"
  }

  /** What `copyArrayValue` keeps of one array entry: nothing when it is
      blank, its trimmed text otherwise. */
  function CleanEntry(v: string): (r: seq<string>)
  {
    if IsBlank(v) then [] else [Trim(v)]
  }

  /** `copyArrayValue` on an array: blank entries dropped, the others trimmed,
      in their order. */
  function CleanList(vs: seq<string>): (r: seq<string>)
    ensures |r| <= |vs|
  {
    if vs == [] then []
    else CleanList(vs[..|vs| - 1]) + CleanEntry(vs[|vs| - 1])
  }

  /** `copyArrayValue`: an array is cleaned entry by entry; a scalar becomes
      a list of itself, untrimmed, unless it is blank. */
  function CleanValue(v: OptValue): (r: seq<string>)
  {
    match v
    case Single(s) => if IsBlank(s) then [] else [s]
    case Many(vs) => CleanList(vs)
  }

  /** `copyArrayValue` as the script runs it, a loop that builds `$output`. */
  method CopyArrayValue(value: OptValue) returns (output: seq<string>)
    ensures output == CleanValue(value)
    ensures value.Single? ==> |output| <= 1
  {
    output := [];
    match value {
      case Many(vs) =>
        var i := 0;
        while i < |vs|
          invariant 0 <= i <= |vs|
          invariant output == CleanList(vs[..i])
        {
          TakeTake(vs, i);
          if !IsBlank(vs[i]) {
            output := output + [Trim(vs[i])];
          }
          assert output == CleanList(vs[..i]) + CleanEntry(vs[i]);
          i := i + 1;
        }
        assert vs[..i] == vs;
      case Single(s) =>
        if !IsBlank(s) {
          output := [s];
        }
    }
  }

  /** Cleaning a list cleans its pieces independently: relative order is kept. */
  lemma {:induction false} CleanListAppend(a: seq<string>, b: seq<string>)
    ensures CleanList(a + b) == CleanList(a) + CleanList(b)
    decreases |b|
  {
    if b == [] {
      assert a + b == a;
    } else {
      var init := b[..|b| - 1];
      var ab := a + b;
      InitOfAppend(a, b);
      assert ab[|ab| - 1] == b[|b| - 1];
      CleanListAppend(a, init);
      assert CleanList(ab) == CleanList(a + init) + CleanEntry(b[|b| - 1]);
    }
  }

  /** The cleaning leaves nothing exactly when every entry is blank. */
  lemma {:induction false} CleanListEmpty(vs: seq<string>)
    ensures CleanList(vs) == [] <==> forall k :: 0 <= k < |vs| ==> IsBlank(vs[k])
  {
    if vs != [] {
      var init := vs[..|vs| - 1];
      CleanListEmpty(init);
      assert forall k :: 0 <= k < |init| ==> init[k] == vs[k];
    }
  }

  /** Every entry the cleaning keeps is the trimmed text of a non-blank
      entry it was given, and is trimmed already. */
  lemma {:induction false} CleanListKeeps(vs: seq<string>)
    ensures forall x :: x in CleanList(vs) ==> exists v :: v in vs && !IsBlank(v) && x == Trim(v)
    ensures forall x :: x in CleanList(vs) ==> Trim(x) == x
  {
    if vs != [] {
      var init := vs[..|vs| - 1];
      var last := vs[|vs| - 1];
      CleanListKeeps(init);
      forall x | x in CleanList(vs)
        ensures exists v :: v in vs && !IsBlank(v) && x == Trim(v)
        ensures Trim(x) == x
      {
        if x in CleanList(init) {
          var v :| v in init && !IsBlank(v) && x == Trim(v);
          assert v in vs;
        } else {
          assert x in CleanEntry(last);
          assert last in vs;
          TrimIdempotent(last);
        }
      }
    }
  }

  /** The scalar an option sets: line 363 trims a string; an array is stored
      as it is and reads back as the string "Array" wherever it is used. */
  function ScalarValue(v: OptValue): (r: string)
    ensures v.Single? ==> |r| <= |v.text|
    ensures v.Single? && v.text != [] && v.text[0] !in TrimChars && v.text[|v.text| - 1] !in TrimChars ==> r == v.text
  {
    match v
    case Single(s) => TrimKeeps(s); Trim(s)
    case Many(_) => "Array"
  }

  /** The list an option sets: `copyArrayValue` of the (trimmed) value. */
  function ListValue(v: OptValue): (r: seq<string>)
    ensures v.Single? ==> |r| <= 1
    ensures v.Many? ==> |r| <= |v.texts|
  {
    match v
    case Single(s) => CleanValue(Single(Trim(s)))
    case Many(vs) => CleanList(vs)
  }

  /** Every entry of a list an option stores is trimmed already. */
  lemma ListTrimmed(v: OptValue)
    ensures forall x :: x in ListValue(v) ==> Trim(x) == x
  {
    if v.Single? {
      SingleTrimmed(v.text);
    } else {
      CleanListKeeps(v.texts);
    }
  }

  /** A single option value keeps at most its trimmed text, which `trim`
      leaves as it is. */
  lemma SingleTrimmed(s: string)
    ensures forall x :: x in CleanValue(Single(Trim(s))) ==> Trim(x) == x
  {
    var t := Trim(s);
    forall x | x in CleanValue(Single(t))
      ensures Trim(x) == x
    {
      assert x == t;
      TrimIdempotent(s);
    }
  }

  /** The keys the `switch` has a case for. `k`, the short key `getopt` is
      given for `--lint`, is not among them. */
  const SwitchKeys: set<string> := {"m", "mode", "e", "exclude", "i", "include", "s", "suffix", "l", "lint",
                                    "o", "output", "d", "outputdir", "p", "path", "q", "quiet", "h", "help"}

  /** One turn of the `switch` of lines 365-410. Each list option replaces
      the list set by an earlier key; the short key `k` that `getopt` is
      given for `--lint` falls through, because the `switch` handles `l`. */
  function ApplyOption(conf: Conf, key: string, value: OptValue): (r: Result<Conf, Error>)
    ensures r.Err? <==>
              ((key == "m" || key == "mode") && ScalarValue(value) !in ModeNames) ||
              key == "h" || key == "help"
    ensures r.Err? ==> r.error == if key == "h" || key == "help" then HelpRequested else UnknownMode(ScalarValue(value))
    ensures r.Ok? ==> r.value.returnCodesOk == conf.returnCodesOk
    ensures r.Ok? && conf.mode in ModeNames ==> r.value.mode in ModeNames
    ensures r.Ok? ==> r.value.mode == if key == "m" || key == "mode" then ScalarValue(value) else conf.mode
    ensures r.Ok? ==> r.value.excludes == if key == "e" || key == "exclude" then ListValue(value) else conf.excludes
    ensures r.Ok? ==> r.value.includes == if key == "i" || key == "include" then ListValue(value) else conf.includes
    ensures r.Ok? ==> r.value.suffixes == if key == "s" || key == "suffix" then ListValue(value) else conf.suffixes
    ensures r.Ok? ==> r.value.lint == if key == "l" || key == "lint" then ScalarValue(value) else conf.lint
    ensures r.Ok? ==> r.value.outputFile == if key == "o" || key == "output" then ScalarValue(value) else conf.outputFile
    ensures r.Ok? ==> r.value.outputDir == if key == "d" || key == "outputdir" then ScalarValue(value) else conf.outputDir
    ensures r.Ok? ==> r.value.paths == if key == "p" || key == "path" then ListValue(value) else conf.paths
    ensures r.Ok? ==> r.value.quiet == (conf.quiet || key == "q" || key == "quiet")
    ensures key !in SwitchKeys ==> r == Ok(conf)
  {
    if key == "m" || key == "mode" then
      var m := ScalarValue(value);
      if Lookup(m).None? then Err(UnknownMode(m)) else Ok(conf.(mode := m))
    else if key == "e" || key == "exclude" then Ok(conf.(excludes := ListValue(value)))
    else if key == "i" || key == "include" then Ok(conf.(includes := ListValue(value)))
    else if key == "s" || key == "suffix" then Ok(conf.(suffixes := ListValue(value)))
    else if key == "l" || key == "lint" then Ok(conf.(lint := ScalarValue(value)))
    else if key == "o" || key == "output" then Ok(conf.(outputFile := ScalarValue(value)))
    else if key == "d" || key == "outputdir" then Ok(conf.(outputDir := ScalarValue(value)))
    else if key == "p" || key == "path" then Ok(conf.(paths := ListValue(value)))
    else if key == "q" || key == "quiet" then Ok(conf.(quiet := true))
    else if key == "h" || key == "help" then Err(HelpRequested)
    else Ok(conf)
  }

  /** `getopt` is told `k:` for `--lint`, but the `switch` has a case for
      `l`: `-k` is accepted and then ignored. */
  lemma LintShortKeyIgnored(conf: Conf, value: OptValue)
    ensures ApplyOption(conf, "k", value) == Ok(conf)
  {
    assert "k" !in SwitchKeys;
  }

  /** The whole option loop: the options in order, stopping at the first
      fatal one. */
  function ApplyAll(conf: Conf, options: seq<(string, OptValue)>): (r: Result<Conf, Error>)
    ensures r.Err? ==> r.error == HelpRequested || r.error.UnknownMode?
  {
    if options == [] then Ok(conf)
    else
      match ApplyAll(conf, options[..|options| - 1])
      case Err(e) => Err(e)
      case Ok(c) => ApplyOption(c, options[|options| - 1].0, options[|options| - 1].1)
  }

  /** The option loop never leaves `$conf` naming an unknown mode, and never
      touches the exit codes. */
  lemma {:induction false} ApplyAllKeepsInvariants(conf: Conf, options: seq<(string, OptValue)>)
    requires conf.mode in ModeNames
    ensures ApplyAll(conf, options).Ok? ==> ApplyAll(conf, options).value.mode in ModeNames
    ensures ApplyAll(conf, options).Ok? ==> ApplyAll(conf, options).value.returnCodesOk == conf.returnCodesOk
  {
    if options != [] {
      ApplyAllKeepsInvariants(conf, options[..|options| - 1]);
    }
  }

  /** One turn of the `switch`, as a statement on `$conf`. */
  method Switch(conf: Conf, key: string, value: OptValue) returns (r: Result<Conf, Error>)
    ensures r == ApplyOption(conf, key, value)
  {
    var next := conf;
    if key == "m" || key == "mode" {
      var m := ScalarValue(value);
      if Lookup(m).None? {
        return Err(UnknownMode(m));
      }
      next := conf.(mode := m);
    } else if key == "e" || key == "exclude" {
      var list := CopyArrayValue(if value.Single? then Single(Trim(value.text)) else value);
      next := conf.(excludes := list);
    } else if key == "i" || key == "include" {
      var list := CopyArrayValue(if value.Single? then Single(Trim(value.text)) else value);
      next := conf.(includes := list);
    } else if key == "s" || key == "suffix" {
      var list := CopyArrayValue(if value.Single? then Single(Trim(value.text)) else value);
      next := conf.(suffixes := list);
    } else if key == "l" || key == "lint" {
      next := conf.(lint := ScalarValue(value));
    } else if key == "o" || key == "output" {
      next := conf.(outputFile := ScalarValue(value));
    } else if key == "d" || key == "outputdir" {
      next := conf.(outputDir := ScalarValue(value));
    } else if key == "p" || key == "path" {
      var list := CopyArrayValue(if value.Single? then Single(Trim(value.text)) else value);
      next := conf.(paths := list);
    } else if key == "q" || key == "quiet" {
      next := conf.(quiet := true);
    } else if key == "h" || key == "help" {
      return Err(HelpRequested);
    }
    r := Ok(next);
  }

  /** The option loop of the main program, updating `$conf` key by key. */
  method ParseOptions(options: seq<(string, OptValue)>) returns (r: Result<Conf, Error>)
    ensures r == ApplyAll(Defaults, options)
    ensures r.Ok? ==> r.value.mode in ModeNames
  {
    r := Ok(Defaults);
    var i := 0;
    while i < |options| && r.Ok?
      invariant 0 <= i <= |options|
      invariant r == ApplyAll(Defaults, options[..i])
    {
      ApplyAllNext(Defaults, options, i);
      r := Switch(r.value, options[i].0, options[i].1);
      i := i + 1;
    }
    if r.Err? {
      ErrStops(Defaults, options[..i], options[i..]);
      TakeDrop(options, i);
    } else {
      assert options[..i] == options;
    }
    ApplyAllKeepsInvariants(Defaults, options);
  }

  /** One more turn of the loop applies one more option. */
  lemma ApplyAllNext(conf: Conf, options: seq<(string, OptValue)>, i: nat)
    requires i < |options|
    ensures ApplyAll(conf, options[..i + 1]) ==
              match ApplyAll(conf, options[..i])
              case Err(e) => Err(e)
              case Ok(c) => ApplyOption(c, options[i].0, options[i].1)
  {
    TakeTake(options, i);
  }

  /** A fatal option ends the loop: nothing after it is looked at. */
  lemma {:induction false} ErrStops(conf: Conf, done: seq<(string, OptValue)>, rest: seq<(string, OptValue)>)
    requires ApplyAll(conf, done).Err?
    ensures ApplyAll(conf, done + rest) == ApplyAll(conf, done)
    decreases |rest|
  {
    if rest == [] {
      assert done + rest == done;
    } else {
      InitOfAppend(done, rest);
      ErrStops(conf, done, rest[..|rest| - 1]);
    }
  }

  /** Lines 413-422: a falsy lint and an empty suffix list fall back to the
      mode's defaults, and the exit codes always come from the mode. */
  function Resolve(conf: Conf): (r: Conf)
    requires conf.mode in ModeNames
    ensures r.returnCodesOk == Lookup(conf.mode).value.returnCodesOk
    ensures r.lint == (if Falsy(conf.lint) then Lookup(conf.mode).value.lint else conf.lint)
    ensures r.suffixes == (if conf.suffixes == [] then Lookup(conf.mode).value.suffixes else conf.suffixes)
    ensures !Falsy(r.lint) && r.suffixes != []
    ensures r.(lint := conf.lint, suffixes := conf.suffixes, returnCodesOk := conf.returnCodesOk) == conf
  {
    var m := Lookup(conf.mode).value;
    ModeDefaultsUsable(conf.mode);
    conf.(lint := if Falsy(conf.lint) then m.lint else conf.lint,
          suffixes := if conf.suffixes == [] then m.suffixes else conf.suffixes,
          returnCodesOk := m.returnCodesOk)
  }

  /** Resolving twice is resolving once. */
  lemma ResolveIdempotent(conf: Conf)
    requires conf.mode in ModeNames
    ensures Resolve(Resolve(conf)) == Resolve(conf)
  {
  }
}

=== FILE: Errors.dfy ===
/** The fatal conditions of syntax-check.php and the exit status each one
    ends the run with. The model returns the condition instead of
    terminating; no report is made after it. */
module Errors {

  datatype Error =
    | UnknownMode(mode: string)                        // `--mode` names no registered mode
    | HelpRequested                                    // `-h` / `--help`
    | PathNotFound(path: string)                       // a `--path` root that is not a directory
    | WrapperFailed(path: string)                      // preProcess cannot read the JSON file or write its wrapper
    | CannotExecute(command: string, path: string)     // popen failed
    | CannotReadOutput(command: string, path: string)  // stream_get_contents failed
    | CannotRemoveWrapper(path: string)                // postProcess cannot unlink the wrapper
    | UndefinedMethod(name: string)                    // a call to a method the object does not have

  /** The conditions reported by `errorAndExit` (lines 303-307), which exits
      with status 1. */
  predicate ByErrorAndExit(e: Error)
  {
    e.UnknownMode? || e.HelpRequested? || e.PathNotFound?
  }

  /** The conditions reported by `die` with a message (lines 93, 98, 112,
      177 and 182). */
  predicate ByDie(e: Error)
  {
    e.WrapperFailed? || e.CannotExecute? || e.CannotReadOutput? || e.CannotRemoveWrapper?
  }

  /** The exit status as written: `errorAndExit` exits with 1; `die` with a
      string prints it and exits with 0, the status of success; a PHP fatal
      error exits with 255. */
  function ExitStatus(e: Error): (status: int)
    ensures status == 0 <==> ByDie(e)
    ensures status != 0 ==> status == 1 || status == 255
    ensures ByErrorAndExit(e) ==> status == 1
    ensures e.UndefinedMethod? ==> status == 255
  {
    if ByErrorAndExit(e) then 1
    else if e.UndefinedMethod? then 255
    else 0
  }

  /** A lint run that cannot be started ends the script with exit status 0,
      so a caller that looks at the status takes the failed check for a
      passed one. */
  lemma LintFailureExitsZero(command: string, path: string)
    ensures ExitStatus(CannotExecute(command, path)) == 0
    ensures ExitStatus(UnknownMode(command)) == 1
  {
  }

  /** The exit status the messages evidently intend: every fatal condition
      ends the run unsuccessfully; `die` is given status 1, like
      `errorAndExit`. */
  function IntendedExitStatus(e: Error): (status: int)
    ensures status != 0
    ensures ByDie(e) ==> status == 1
    ensures !ByDie(e) ==> status == ExitStatus(e)
  {
    if ByDie(e) then 1 else ExitStatus(e)
  }
}

=== FILE: Filter.dfy ===
/** The selection part of `processFile` (lines 116-153): the include/exclude
    patterns, then the suffix of the basename. The regular-expression engine
    is foreign: `matches(p, path)` stands for `preg_match("#p#", path)`
    returning a match (a pattern that fails to compile reads as no match). */
module Filter {

  import opened Wrappers
  import opened Paths
  import opened Config

  /** Some pattern of the list matches the path. */
  predicate AnyMatch(patterns: seq<string>, matches: (string, string) -> bool, path: string)
  {
    exists p :: p in patterns && matches(p, path)
  }

  /** The two `foreach` loops that set `$skip`: every matching exclude sets
      it, then every matching include clears it. Whatever the order of the
      two lists, the path is skipped iff some exclude matches and no include
      does, so an include always wins over an exclude. */
  method PatternSkip(excludes: seq<string>, includes: seq<string>,
                     matches: (string, string) -> bool, path: string) returns (skip: bool)
    ensures skip <==> AnyMatch(excludes, matches, path) && !AnyMatch(includes, matches, path)
  {
    skip := false;
    for i := 0 to |excludes|
      invariant skip <==> exists k :: 0 <= k < i && matches(excludes[k], path)
    {
      if matches(excludes[i], path) {
        skip := true;
      }
    }
    ghost var excluded := skip;
    for i := 0 to |includes|
      invariant skip <==> excluded && !exists k :: 0 <= k < i && matches(includes[k], path)
    {
      if matches(includes[i], path) {
        skip := false;
      }
    }
  }

  /** The suffix of a path `processFile` goes on to check, or nothing when it
      returns early: the patterns skip the path, its basename has no suffix,
      or the suffix is not one of `$conf['suffixes']`. Nothing here asks
      whether the path is a file: a directory named `lib.php` is selected. */
  function SelectedSuffix(conf: Conf, matches: (string, string) -> bool, path: string): (r: Option<string>)
    ensures r.Some? ==> r.value in conf.suffixes && r.value != "" && '.' !in r.value
    ensures r.Some? ==> AnyMatch(conf.includes, matches, path) || !AnyMatch(conf.excludes, matches, path)
  {
    if AnyMatch(conf.excludes, matches, path) && !AnyMatch(conf.includes, matches, path) then None
    else
      match Suffix(Basename(path))
      case None => None
      case Some(s) => if s in conf.suffixes then Some(s) else None
  }

  predicate Selected(conf: Conf, matches: (string, string) -> bool, path: string)
  {
    SelectedSuffix(conf, matches, path).Some?
  }

  /** The selection rule in full: a path is selected iff the patterns let it
      through and its basename ends in a dot and a non-empty run of non-dots
      that is a configured suffix. */
  lemma SelectedIff(conf: Conf, matches: (string, string) -> bool, path: string)
    ensures Selected(conf, matches, path) <==>
              (AnyMatch(conf.includes, matches, path) || !AnyMatch(conf.excludes, matches, path)) &&
              exists k :: DotBeforeSuffix(Basename(path), k) && Basename(path)[k + 1..] in conf.suffixes
  {
    var b := Basename(path);
    if Suffix(b).Some? {
      var k := |b| - |Suffix(b).value| - 1;
      assert b[k + 1..] == Suffix(b).value;
      assert DotBeforeSuffix(b, k);
    }
    forall k | DotBeforeSuffix(b, k)
      ensures Suffix(b) == Some(b[k + 1..])
    {
      SuffixAt(b, k);
    }
  }

  /** Position `k` of `name` holds the dot that starts its suffix. */
  predicate DotBeforeSuffix(name: string, k: int)
  {
    0 <= k < |name| - 1 && name[k] == '.' && '.' !in name[k + 1..]
  }

  /** The dot at `k` is the last one: the suffix starts right after it. */
  lemma SuffixAt(name: string, k: int)
    requires DotBeforeSuffix(name, k)
    ensures Suffix(name) == Some(name[k + 1..])
  {
    assert name[k] in name;
    assert name[|name| - 1] in name[k + 1..] by {
      assert name[k + 1..][|name| - k - 2] == name[|name| - 1];
    }
    var t := Suffix(name).value;
    var j := |name| - |t| - 1;
    assert name[j + 1..] == t;
    NoDotAfter(name, k);
    NoDotAfter(name, j);
    assert name[j] == '.' && name[k] == '.';
    assert j == k;
  }

  /** No dot in the text after position `k` means no dot at any later index. */
  lemma NoDotAfter(name: string, k: int)
    requires 0 <= k < |name|
    requires '.' !in name[k + 1..]
    ensures forall i :: k < i < |name| ==> name[i] != '.'
  {
    forall i | k < i < |name|
      ensures name[i] != '.'
    {
      assert name[k + 1..][i - k - 1] == name[i];
    }
  }

  /** The selection depends only on which patterns the two lists hold: not
      on their order, and not on how often a pattern is repeated. */
  lemma PatternOrderIrrelevant(conf: Conf, other: Conf, matches: (string, string) -> bool, path: string)
    requires forall p :: p in conf.excludes <==> p in other.excludes
    requires forall p :: p in conf.includes <==> p in other.includes
    requires conf.suffixes == other.suffixes
    ensures Selected(conf, matches, path) <==> Selected(other, matches, path)
  {
  }
}

=== FILE: Modes.dfy ===
/** The `$mode_definitions` table and the pass criterion of a lint run. */
module Modes {

  import opened Wrappers

  /** One checking policy: the suffixes it selects, the lint command line it
      runs by default and the exit codes it counts as a pass. */
  datatype ModeDefinition = ModeDefinition(suffixes: seq<string>, lint: string, returnCodesOk: seq<int>)

  /** The JavaScript Lint command line of the `javascript` mode, with the
      installation paths the script was written for. */
  const JslCommand: string := "/app1/cmcwork/jsl-0.3.0/jsl -conf /app1/cmcwork/jsl-0.3.0/jsl.conf -process"

  const ModeNames: set<string> := {"php", "php_noshort", "javascript", "perl"}

  /** `$mode_definitions[$name]`, or nothing for an unregistered name. */
  function Lookup(name: string): (r: Option<ModeDefinition>)
    ensures r.Some? <==> name in ModeNames
  {
    if name == "php" then
      Some(ModeDefinition(["php", "inc"], "php -l", [0]))
    else if name == "php_noshort" then
      Some(ModeDefinition(["php", "inc"], "php -d short_open_tag=0 -l", [0]))
    else if name == "javascript" then
      Some(ModeDefinition(["js", "json"], JslCommand, [0, 1]))
    else if name == "perl" then
      Some(ModeDefinition(["pl", "pm", "ipl"], "perl -cw", [0]))
    else
      None
  }

  /** `$status >> 8`. PHP's `>>` is an arithmetic shift, which is floor
      division by 256; Dafny's `/` with a positive divisor is that same floor
      division, also for negative values. */
  function ExitCode(status: int): (code: int)
    ensures 256 * code <= status < 256 * code + 256
  {
    status / 256
  }

  /** Line 187 as written: the value `pclose` returned, shifted right by
      eight bits, must be one of the mode's codes; that is, the value must lie
      in the block of 256 values of an accepted code. */
  predicate Passes(status: int, codesOk: seq<int>)
    ensures Passes(status, codesOk) <==>
              exists i :: 0 <= i < |codesOk| && 256 * codesOk[i] <= status < 256 * codesOk[i] + 256
  {
    ExitCode(status) in codesOk
  }

  /** The premise line 187 is written for: a wait status carries the exit
      code in its high bits and the signal information in the low eight, and
      the shift recovers the exit code. */
  lemma ExitCodeOfWaitStatus(code: int, low: int)
    requires 0 <= low < 256
    ensures ExitCode(code * 256 + low) == code
  {
    var s := code * 256 + low;
    assert s == 256 * code + low;
  }

  /** PHP's `pclose` already gives the exit code of a command that exits
      normally (0 to 255), and -1 when it fails. Shifted, every exit code is
      0, so line 187 as written accepts every lint run that ran to its end,
      in every mode: `php -l` on a file with a syntax error exits with 255
      and still passes. */
  lemma ShiftedExitCodeAlwaysPasses(name: string, code: int)
    requires name in ModeNames
    requires 0 <= code < 256
    ensures Passes(code, Lookup(name).value.returnCodesOk)
    ensures Passes(255, Lookup("php").value.returnCodesOk) && !Accepts(255, Lookup("php").value.returnCodesOk)
  {
    assert ExitCode(code) == 0;
    assert Lookup("php").value.returnCodesOk == [0];
  }

  /** The pass criterion line 187 evidently intends: the exit code of the
      lint run is one of the mode's. */
  predicate Accepts(code: int, codesOk: seq<int>)
  {
    code in codesOk
  }

  /** On any wait status that an exit code gives, the shifted test as
      written agrees with the intended criterion on that exit code. */
  lemma AcceptsOnWaitStatus(code: int, low: int, codesOk: seq<int>)
    requires 0 <= low < 256
    ensures Accepts(code, codesOk) <==> Passes(code * 256 + low, codesOk)
  {
    ExitCodeOfWaitStatus(code, low);
  }

  /** What each registered mode accepts under the intended criterion:
      `javascript` exit codes 0 and 1 (warnings only), every other mode exit
      code 0 alone; a failed `pclose` (-1) never passes. */
  lemma IntendedAcceptance(name: string, code: int)
    requires name in ModeNames
    ensures Accepts(code, Lookup(name).value.returnCodesOk) <==>
              (code == 0 || (name == "javascript" && code == 1))
    ensures !Accepts(-1, Lookup(name).value.returnCodesOk)
  {
    if name == "javascript" {
      assert Lookup(name).value.returnCodesOk == [0, 1];
    } else {
      assert Lookup(name).value.returnCodesOk == [0];
    }
  }

  /** In every registered mode the intended criterion is the stricter one:
      a value it accepts also passes the shifted test as written. */
  lemma IntendedStricter(name: string, value: int)
    requires name in ModeNames
    ensures Accepts(value, Lookup(name).value.returnCodesOk) ==> Passes(value, Lookup(name).value.returnCodesOk)
  {
    IntendedAcceptance(name, value);
    if Accepts(value, Lookup(name).value.returnCodesOk) {
      assert ExitCode(value) == 0;
      ModeAcceptance(name, value);
    }
  }

  /** What each registered mode accepts as written: a shifted value of 0 in
      every mode, of 1 also in `javascript`; a failed `pclose` (-1) never
      passes. */
  lemma ModeAcceptance(name: string, status: int)
    requires name in ModeNames
    ensures Passes(status, Lookup(name).value.returnCodesOk) <==>
              (ExitCode(status) == 0 || (name == "javascript" && ExitCode(status) == 1))
    ensures !Passes(-1, Lookup(name).value.returnCodesOk)
  {
    assert ExitCode(-1) == -1;
    if name == "javascript" {
      assert Lookup(name).value.returnCodesOk == [0, 1];
    } else {
      assert Lookup(name).value.returnCodesOk == [0];
    }
  }

  /** Every mode's defaults can stand as resolved values: the lint command is
      neither "" nor "0" (both falsy in PHP) and the suffix list is non-empty. */
  lemma ModeDefaultsUsable(name: string)
    requires name in ModeNames
    ensures Lookup(name).value.lint != "" && Lookup(name).value.lint != "0"
    ensures Lookup(name).value.suffixes != []
  {
    var d := Lookup(name).value;
    if name == "php" {
      assert d.lint == "php -l";
    } else if name == "php_noshort" {
      assert d.lint == "php -d short_open_tag=0 -l";
    } else if name == "javascript" {
      assert d.lint == JslCommand;
    } else {
      assert d.lint == "perl -cw";
    }
  }
}

=== FILE: Paths.dfy ===
/** PHP's `basename` and `dirname` on '/'-separated paths, and the suffix test
    `preg_match('/\.([^.]+)$/', $basename)` of `processFile`. */
module Paths {

  import opened Wrappers

  /** The path without its trailing slashes. */
  function StripTrailingSlashes(p: string): (r: string)
    ensures |r| <= |p| && r == p[..|r|]
    ensures r == [] || r[|r| - 1] != '/'
    ensures forall k :: |r| <= k < |p| ==> p[k] == '/'
  {
    if p != [] && p[|p| - 1] == '/' then StripTrailingSlashes(p[..|p| - 1]) else p
  }

  /** The text after the last `sep` (all of `s` when it has none). */
  function AfterLast(s: string, sep: char): (r: string)
    ensures |r| <= |s| && r == s[|s| - |r|..]
    ensures sep !in r
    ensures |r| < |s| ==> s[|s| - |r| - 1] == sep
  {
    if s == [] || s[|s| - 1] == sep then []
    else
      var init := AfterLast(s[..|s| - 1], sep);
      assert s[..|s| - 1][|s| - 1 - |init|..] == s[|s| - 1 - |init|..|s| - 1];
      init + [s[|s| - 1]]
  }

  /** `basename($p)`: trailing slashes are ignored, then the last component. */
  function Basename(p: string): (r: string)
    ensures '/' !in r
    ensures |r| <= |p|
  {
    AfterLast(StripTrailingSlashes(p), '/')
  }

  /** `dirname($p)`: "." for a bare name, "/" for a name directly under the
      root (or for a path of slashes only), "" for the empty path. */
  function Dirname(p: string): (r: string)
    ensures p != [] ==> r != []
  {
    if p == [] then []
    else
      var a := StripTrailingSlashes(p);
      if a == [] then "/"
      else
        var b := a[..|a| - |AfterLast(a, '/')|];
        if b == [] then "."
        else
          var c := StripTrailingSlashes(b);
          if c == [] then "/" else c
  }

  /** For a directory `d` without a trailing slash and a non-empty name `b`,
      `dirname` and `basename` split `d + "/" + b` back into `d` and `b`. */
  lemma {:induction false} SplitPath(d: string, b: string)
    requires d != [] && d[|d| - 1] != '/'
    requires b != [] && '/' !in b
    ensures Dirname(d + "/" + b) == d
    ensures Basename(d + "/" + b) == b
  {
    var p := d + "/" + b;
    assert StripTrailingSlashes(p) == p by {
      assert p[|p| - 1] == b[|b| - 1];
      assert b[|b| - 1] in b;
    }
    AfterLastOfJoin(d, b);
    assert p[..|p| - |b|] == d + "/";
    assert StripTrailingSlashes(d + "/") == d by {
      assert (d + "/")[..|d|] == d;
    }
  }

  lemma {:induction false} AfterLastOfJoin(d: string, b: string)
    requires '/' !in b
    ensures AfterLast(d + "/" + b, '/') == b
    decreases |b|
  {
    var p := d + "/" + b;
    if b == [] {
      assert p[|p| - 1] == '/';
    } else {
      var init := b[..|b| - 1];
      assert b[|b| - 1] in b;
      assert p[..|p| - 1] == d + "/" + init;
      assert forall c :: c in init ==> c in b;
      AfterLastOfJoin(d, init);
      assert init + [b[|b| - 1]] == b;
    }
  }

  /** The file suffix as `/\.([^.]+)$/` captures it: the non-empty text after
      the last dot. There is none when the name has no dot or ends in one.
      (The `$` may also match before a final newline, but `[^.]+` takes that
      newline too, so the capture always runs to the end of the name.) */
  function Suffix(name: string): (r: Option<string>)
    ensures r.Some? ==> 0 < |r.value| < |name|
    ensures r.Some? ==> name[|name| - |r.value| - 1] == '.' && name[|name| - |r.value|..] == r.value
    ensures r.Some? ==> '.' !in r.value
    ensures r.None? <==> ('.' !in name || name[|name| - 1] == '.')
  {
    var tail := AfterLast(name, '.');
    if |tail| == |name| || tail == [] then None else Some(tail)
  }
}

=== FILE: Report.dfy ===
/** The two reports made from `$results`: the JUnit suite of `generateXML`
    (as a record of its attributes and test cases, not as XML text) and the
    per-file output of `generateOutputDir` (one file name and content per
    result). */
module Report {

  import opened Wrappers
  import opened Errors
  import opened Text
  import opened Runner
  import opened Seqs

  /** The `failure` child of a failed test case: its `type` and its text. */
  datatype Failure = Failure(kind: string, text: string)

  /** One `testcase`: its `name` and `file` attributes and its failure, if any. */
  datatype TestCase = TestCase(name: string, file: string, failure: Option<Failure>)

  /** The `testsuite` element: `name`, `tests`, `failures`, `errors` and the
      test cases in document order. */
  datatype Suite = Suite(name: string, tests: nat, failures: nat, errors: nat, cases: seq<TestCase>)

  const FailureType: string := "PHP_Syntax_Error"

  /** `preg_replace('|^\.-|', '', s)`: one leading ".-" is removed. */
  function DropDotDash(s: string): (r: string)
    ensures s == r || s == ".-" + r
    ensures r != s <==> |s| >= 2 && s[..2] == ".-"
  {
    if |s| >= 2 && s[0] == '.' && s[1] == '-' then s[2..] else s
  }

  /** The `name` attribute of a test case, made from the result's file name:
      lower-cased, every '/' turned into '-', a leading ".-" dropped. It holds
      no '/' and no upper-case letter; it loses two characters exactly when
      the name starts with "./" or ".-", and for a name without '/' it is the
      tail of the lower-cased name. */
  function CaseName(filename: string): (r: string)
    ensures '/' !in r
    ensures forall i :: 0 <= i < |r| ==> !IsUpper(r[i])
    ensures |r| == |filename| || |r| == |filename| - 2
    ensures |r| < |filename| <==> |filename| >= 2 && filename[0] == '.' && (filename[1] == '-' || filename[1] == '/')
    ensures '/' !in filename ==> r == Lower(filename)[|filename| - |r|..]
  {
    CaseNameParts(filename);
    DropDotDash(Translate(Lower(filename), '/', '-'))
  }

  /** Before ".-" is dropped: the name starts with ".-" after the two
      translations iff it started with "./" or ".-", and without '/' the
      translation of '/' changes nothing. */
  lemma CaseNameParts(filename: string)
    ensures var t := Translate(Lower(filename), '/', '-');
            && (|t| >= 2 && t[..2] == ".-" <==>
                  |filename| >= 2 && filename[0] == '.' && (filename[1] == '-' || filename[1] == '/'))
            && ('/' !in filename ==> t == Lower(filename))
  {
    var low := Lower(filename);
    var t := Translate(low, '/', '-');
    if |filename| >= 2 {
      LowerKeeps(filename, 0, '.');
      LowerKeeps(filename, 1, '-');
      LowerKeeps(filename, 1, '/');
      assert t[..2] == [t[0], t[1]];
    }
    if '/' !in filename {
      forall i | 0 <= i < |low|
        ensures low[i] != '/'
      {
        assert filename[i] != '/';
      }
      assert t == low;
    }
  }

  /** The file name of a result is a basename, so the '/' translation never
      applies: the case name is the lower-cased basename, unless that starts
      with ".-". */
  lemma CaseNameOfBasename(filename: string)
    requires '/' !in filename
    requires !(|filename| >= 2 && filename[0] == '.' && filename[1] == '-')
    ensures CaseName(filename) == Lower(filename)
  {
    var low := Lower(filename);
    var t := Translate(low, '/', '-');
    forall i | 0 <= i < |low|
      ensures low[i] != '/'
    {
      assert filename[i] != '/';
    }
    assert t == low;
    if |low| >= 2 {
      LowerKeeps(filename, 0, '.');
      LowerKeeps(filename, 1, '-');
    }
  }

  /** A lower-cased character is a given punctuation mark only where the
      original was that mark already. */
  lemma LowerKeeps(s: string, i: int, c: char)
    requires 0 <= i < |s|
    requires !IsUpper(c) && c < 'a'
    ensures Lower(s)[i] == c <==> s[i] == c
  {
  }

  /** The test case `generateXML` writes for one result: named after the
      result's basename, pointing at its path, with a failure child holding
      its lint output exactly when it failed. */
  function CaseFor(r: FileResult): (c: TestCase)
    ensures c.file == r.absolute
    ensures c.failure.Some? <==> !r.passed
    ensures c.failure.Some? ==> c.failure.value.kind == FailureType && c.failure.value.text == r.info
    ensures c.name == CaseName(r.name)
  {
    TestCase(CaseName(r.name), r.absolute,
             if r.passed then None else Some(Failure(FailureType, r.info)))
  }

  /** The test cases of a suite, one per result, in order. */
  function Cases(results: seq<FileResult>): (r: seq<TestCase>)
    ensures |r| == |results|
    ensures forall i :: 0 <= i < |results| ==> r[i] == CaseFor(results[i])
  {
    if results == [] then []
    else Cases(results[..|results| - 1]) + [CaseFor(results[|results| - 1])]
  }

  /** The number of results with status 0. */
  function FailedCount(results: seq<FileResult>): nat
  {
    if results == [] then 0
    else FailedCount(results[..|results| - 1]) + (if results[|results| - 1].passed then 0 else 1)
  }

  /** The number of test cases with a `failure` child. */
  function FailureCount(cases: seq<TestCase>): nat
  {
    if cases == [] then 0
    else FailureCount(cases[..|cases| - 1]) + (if cases[|cases| - 1].failure.Some? then 1 else 0)
  }

  /** Every failed result gets a `failure` child and no passed one does, so
      the `failures` attribute counts the failure children of the suite; it
      is at most the number of tests, and 0 iff every result passed. */
  lemma {:induction false} FailuresCounted(results: seq<FileResult>)
    ensures FailureCount(Cases(results)) == FailedCount(results)
    ensures FailedCount(results) <= |results|
    ensures FailedCount(results) == 0 <==> forall i :: 0 <= i < |results| ==> results[i].passed
  {
    if results != [] {
      var init := results[..|results| - 1];
      FailuresCounted(init);
      assert Cases(results)[..|results| - 1] == Cases(init);
      assert forall i :: 0 <= i < |init| ==> init[i] == results[i];
    }
  }

  /** `generateXML`: one loop over the results counts the tests and the
      failures and builds the test cases. */
  method GenerateXml(results: seq<FileResult>, mode: string) returns (suite: Suite)
    ensures suite.name == mode + "SyntaxTest"
    ensures suite.errors == 0
    ensures suite.tests == |results|
    ensures suite.failures == FailedCount(results)
    ensures suite.cases == Cases(results)
  {
    var numTests := 0;
    var numFailed := 0;
    var cases := [];
    for i := 0 to |results|
      invariant numTests == i
      invariant numFailed == FailedCount(results[..i])
      invariant cases == Cases(results[..i])
    {
      TakeTake(results, i);
      numTests := numTests + 1;
      if !results[i].passed {
        numFailed := numFailed + 1;
      }
      cases := cases + [CaseFor(results[i])];
    }
    assert results[..|results|] == results;
    suite := Suite(mode + "SyntaxTest", numTests, numFailed, 0, cases);
  }

  /** The name of the method line 227 calls on the `failure` element. PHP's
      `DOMElement` has no such method, so the call is a fatal error. */
  const AddText: string := "DOMElement::addText"

  /** `generateXML` as written: the loop reaches line 227 at the first failed
      result, where the call to `addText` stops the script with a fatal
      error before any XML is returned. Only a run in which every file passed
      produces its suite. */
  method GenerateXmlAsWritten(results: seq<FileResult>, mode: string) returns (r: Result<Suite, Error>)
    ensures r.Err? <==> FailedCount(results) > 0
    ensures r.Err? ==> r.error == UndefinedMethod(AddText)
    ensures r.Ok? ==> r.value == Suite(mode + "SyntaxTest", |results|, 0, 0, Cases(results))
  {
    var numTests := 0;
    var cases := [];
    for i := 0 to |results|
      invariant numTests == i
      invariant cases == Cases(results[..i])
      invariant FailedCount(results[..i]) == 0
    {
      TakeTake(results, i);
      if !results[i].passed {
        FailuresCounted(results);
        return Err(UndefinedMethod(AddText));
      }
      numTests := numTests + 1;
      cases := cases + [CaseFor(results[i])];
    }
    assert results[..|results|] == results;
    r := Ok(Suite(mode + "SyntaxTest", numTests, 0, 0, cases));
  }

  /** One file whose lint run failed (its `pclose` returned -1, so both
      flags are false): the suite `generateXML` is meant to build has one
      test case with a failure child holding the lint output and counts one
      failure. Since that count is not 0, `GenerateXmlAsWritten` ends in the
      fatal error for these results. */
  lemma OneFailedFile()
    ensures var results := [FileResult("src/b.php", "b.php", "File src/b.php:\n", false, false)];
            && FailedCount(results) == 1
            && Cases(results) == [TestCase("b.php", "src/b.php", Some(Failure(FailureType, "File src/b.php:\n")))]
  {
    var results := [FileResult("src/b.php", "b.php", "File src/b.php:\n", false, false)];
    assert results[..0] == [];
    assert !results[0].passed;
    var low := Lower("b.php");
    assert low == "b.php" by {
      assert forall i :: 0 <= i < |low| ==> low[i] == "b.php"[i];
    }
  }

  /** `preg_replace('|\./|', '', s)`: every "./" is removed, scanning from
      the left without looking again at what a removal brings together. */
  function RemoveDotSlash(s: string): (r: string)
    ensures |r| <= |s|
    ensures '/' !in s ==> r == s
    decreases |s|
  {
    if |s| < 2 then s
    else if s[0] == '.' && s[1] == '/' then RemoveDotSlash(s[2..])
    else [s[0]] + RemoveDotSlash(s[1..])
  }

  /** No "./" occurs anywhere in `s`. */
  predicate NoDotSlash(s: string)
  {
    forall k :: 0 <= k < |s| - 1 ==> !(s[k] == '.' && s[k + 1] == '/')
  }

  /** Text holding no "./" is kept as it is; with RemoveDotSlashAt this
      fixes the rewrite of every path. */
  lemma {:induction false} RemoveDotSlashKeeps(s: string)
    ensures NoDotSlash(s) ==> RemoveDotSlash(s) == s
    decreases |s|
  {
    if NoDotSlash(s) && |s| >= 2 {
      assert !(s[0] == '.' && s[1] == '/');
      var t := s[1..];
      forall k | 0 <= k < |t| - 1
        ensures !(t[k] == '.' && t[k + 1] == '/')
      {
        assert t[k] == s[k + 1] && t[k + 1] == s[k + 2];
      }
      RemoveDotSlashKeeps(t);
      assert [s[0]] + t == s;
    }
  }

  /** `preg_replace('|/|', '_DIR_', s)`: every '/' becomes "_DIR_". */
  function ReplaceSlash(s: string): (r: string)
    ensures '/' !in r
    ensures |r| >= |s|
    ensures '/' !in s ==> r == s
  {
    if s == [] then []
    else (if s[0] == '/' then "_DIR_" else [s[0]]) + ReplaceSlash(s[1..])
  }

  /** The name of the file `generateOutputDir` writes a result's lint output
      to. */
  function ArtefactName(absolute: string): (r: string)
    ensures '/' !in r
    ensures '/' !in absolute ==> r == absolute + ".txt"
  {
    assert '/' !in absolute ==> '/' !in absolute + ".txt";
    ReplaceSlash(RemoveDotSlash(absolute + ".txt"))
  }

  /** Removing "./" works piece by piece when the second piece does not start
      with '/', so nothing can match across the join. */
  lemma {:induction false} RemoveDotSlashAppend(a: string, b: string)
    requires b == [] || b[0] != '/'
    ensures RemoveDotSlash(a + b) == RemoveDotSlash(a) + RemoveDotSlash(b)
    decreases |a|
  {
    var ab := a + b;
    if a == [] {
      assert ab == b;
    } else if |a| == 1 {
      if b != [] {
        assert ab[0] == a[0] && ab[1] == b[0];
        assert ab[1..] == b;
        assert RemoveDotSlash(ab) == a + RemoveDotSlash(b);
      } else {
        assert ab == a;
      }
    } else if a[0] == '.' && a[1] == '/' {
      assert ab[0] == '.' && ab[1] == '/';
      assert ab[2..] == a[2..] + b;
      RemoveDotSlashAppend(a[2..], b);
    } else {
      assert ab[0] == a[0] && ab[1] == a[1];
      assert ab[1..] == a[1..] + b;
      RemoveDotSlashAppend(a[1..], b);
      assert RemoveDotSlash(ab) == [a[0]] + RemoveDotSlash(a[1..] + b);
    }
  }

  /** Replacing '/' works piece by piece. */
  lemma {:induction false} ReplaceSlashAppend(a: string, b: string)
    ensures ReplaceSlash(a + b) == ReplaceSlash(a) + ReplaceSlash(b)
    decreases |a|
  {
    if a == [] {
      assert a + b == b;
    } else {
      assert (a + b)[1..] == a[1..] + b;
      ReplaceSlashAppend(a[1..], b);
    }
  }

  /** Each "./" of a path is removed, and the text on either side of it is
      rewritten on its own. */
  lemma RemoveDotSlashAt(a: string, b: string)
    ensures RemoveDotSlash(a + "./" + b) == RemoveDotSlash(a) + RemoveDotSlash(b)
  {
    var rest := "./" + b;
    assert a + "./" + b == a + rest;
    RemoveDotSlashAppend(a, rest);
    assert rest[2..] == b;
  }

  /** Each '/' of a path becomes "_DIR_", and the text on either side of it
      is rewritten on its own. */
  lemma ReplaceSlashAt(a: string, b: string)
    ensures ReplaceSlash(a + "/" + b) == ReplaceSlash(a) + "_DIR_" + ReplaceSlash(b)
  {
    var slash: string := "/";
    assert ReplaceSlash(slash) == "_DIR_" by {
      assert slash[0] == '/' && slash[1..] == [];
    }
    ReplaceSlashAppend(a + slash, b);
    ReplaceSlashAppend(a, slash);
  }

  /** Every output file name ends in ".txt" after the rewritten path and holds
      no '/', so all of them land in the output directory itself. */
  lemma ArtefactNameShape(absolute: string)
    ensures ArtefactName(absolute) == ReplaceSlash(RemoveDotSlash(absolute)) + ".txt"
    ensures '/' !in ArtefactName(absolute)
    ensures |ArtefactName(absolute)| >= 4
    ensures ArtefactName(absolute)[|ArtefactName(absolute)| - 4..] == ".txt"
  {
    var kept := RemoveDotSlash(absolute);
    assert RemoveDotSlash(absolute + ".txt") == kept + ".txt" by {
      RemoveDotSlashAppend(absolute, ".txt");
      TxtUnchanged();
    }
    assert ReplaceSlash(kept + ".txt") == ReplaceSlash(kept) + ".txt" by {
      ReplaceSlashAppend(kept, ".txt");
      TxtUnchanged();
    }
  }

  /** The ".txt" extension passes both rewrites unchanged. */
  lemma TxtUnchanged()
    ensures RemoveDotSlash(".txt") == ".txt"
    ensures ReplaceSlash(".txt") == ".txt"
  {
    assert '/' !in ".txt";
  }

  /** The files `generateOutputDir` writes, one per result in order: the
      result's lint output under its artefact name. */
  method OutputFiles(results: seq<FileResult>) returns (files: seq<(string, string)>)
    ensures |files| == |results|
    ensures forall i :: 0 <= i < |results| ==>
              files[i] == (ArtefactName(results[i].absolute), results[i].info)
  {
    files := [];
    for i := 0 to |results|
      invariant |files| == i
      invariant forall k :: 0 <= k < i ==> files[k] == (ArtefactName(results[k].absolute), results[k].info)
    {
      var name := RemoveDotSlash(results[i].absolute + ".txt");
      name := ReplaceSlash(name);
      files := files + [(name, results[i].info)];
    }
  }
}

=== FILE: Runner.dfy ===
/** `processFile`, `run` and the root loop of the main program: each selected
    path is linted once and appended to `$results`, in traversal order.
    What lies outside the script is a parameter, `Env`: the pattern engine,
    the directory walk, the JSON wrapper's file I/O and the lint process. */
module Runner {

  import opened Wrappers
  import opened Errors
  import opened Text
  import opened Paths
  import opened Modes
  import opened Config
  import opened Filter
  import opened Seqs

  /** What `popen` / `stream_get_contents` / `pclose` yield for one lint run:
      the value `pclose` returns (the command's exit code, or -1 when
      `pclose` fails) and the merged stdout and stderr, or a failure of the
      first or second call. */
  datatype Exec = Ran(status: int, output: string) | SpawnFailed | ReadFailed

  /** The world the script runs in.
      - `matches(p, path)`: `preg_match("#p#", path)` finds a match;
      - `listing(root)`: `None` when `is_dir(root)` fails, otherwise every
        entry a `RecursiveIteratorIterator` in SELF_FIRST mode yields under
        `root`, directories and `.`/`..` entries included;
      - `wrapperFile(path)`: the name preProcess gives the JavaScript wrapper
        of a JSON file (built from the process id, the time and the encoded
        digest of the path);
      - `wrapperWritten(path)`, `wrapperRemoved(file)`: whether preProcess
        could read the JSON file and write its wrapper, and whether
        postProcess could unlink it;
      - `lint(command, path)`: running `command path 2>&1`. */
  datatype Env = Env(
    matches: (string, string) -> bool,
    listing: string -> Option<seq<string>>,
    wrapperFile: string -> string,
    wrapperWritten: string -> bool,
    wrapperRemoved: string -> bool,
    lint: (string, string) -> Exec)

  /** One entry of `$results`: `filename_absolute`, `filename`, `info` and
      `status`, the flag line 187 computes as written (1 for a pass,
      modelled as `true`). `passed` is the flag line 187 evidently intends
      (see `Modes.Accepts`); the reports read that one. The elapsed time is
      not modelled. */
  datatype FileResult = FileResult(absolute: string, name: string, info: string, status: bool, passed: bool)

  /** preProcess and postProcess act on a file iff its suffix is `json`. */
  predicate NeedsWrapper(suffix: string)
  {
    suffix == "json"
  }

  /** The path the lint command is given: the wrapper for a JSON file, the
      file itself otherwise. */
  function LintTarget(env: Env, path: string, suffix: string): (r: string)
    ensures r != path ==> NeedsWrapper(suffix) && r == env.wrapperFile(path)
  {
    if NeedsWrapper(suffix) then env.wrapperFile(path) else path
  }

  /** `secure_base64_encode` after `base64_encode`: every '/' of the encoding
      becomes '_', so the text can stand in a file name. */
  function SecureBase64(encoded: string): (r: string)
    ensures |r| == |encoded|
    ensures '/' !in r
  {
    Translate(encoded, '/', '_')
  }

  /** Base64 output never holds '_', so the mapping keeps distinct digests
      distinct and wrapper names of different paths apart. */
  lemma SecureBase64Injective(a: string, b: string)
    requires '_' !in a && '_' !in b
    requires SecureBase64(a) == SecureBase64(b)
    ensures a == b
  {
    TranslateInjective(a, b, '/', '_');
  }

  /** What `processFile` does with one path. */
  datatype Step = Skip | Checked(result: FileResult) | Abort(error: Error)

  function StepFor(conf: Conf, env: Env, path: string): Step
  {
    match SelectedSuffix(conf, env.matches, path)
    case None => Skip
    case Some(suffix) => LintStep(conf, env, path, suffix)
  }

  /** The part of `processFile` after the selection: preProcess, the lint
      run, postProcess and the result record, which carries both the
      shifted `status` of line 187 as written and the intended flag. */
  function LintStep(conf: Conf, env: Env, path: string, suffix: string): (s: Step)
    ensures !s.Skip?
  {
    var target := LintTarget(env, path, suffix);
    if NeedsWrapper(suffix) && !env.wrapperWritten(path) then Abort(WrapperFailed(path))
    else
      match env.lint(conf.lint, target)
      case SpawnFailed => Abort(CannotExecute(conf.lint, target))
      case ReadFailed => Abort(CannotReadOutput(conf.lint, target))
      case Ran(status, output) =>
        if NeedsWrapper(suffix) && !env.wrapperRemoved(target) then Abort(CannotRemoveWrapper(target))
        else Checked(FileResult(path, Basename(path), "File " + path + ":\n" + output,
                                Passes(status, conf.returnCodesOk), Accepts(status, conf.returnCodesOk)))
  }

  /** `processFile` goes on to the lint run exactly with the suffix the
      selection yields. */
  lemma StepForIs(conf: Conf, env: Env, path: string, selected: Option<string>)
    requires selected == SelectedSuffix(conf, env.matches, path)
    ensures StepFor(conf, env, path) == if selected.None? then Skip else LintStep(conf, env, path, selected.value)
  {
  }

  /** A path is looked at by the lint command iff it is selected. */
  lemma StepSkipsUnselected(conf: Conf, env: Env, path: string)
    ensures StepFor(conf, env, path).Skip? <==> !Selected(conf, env.matches, path)
  {
  }

  /** A recorded result names the original path (never the JSON wrapper) and
      its basename; its `status` is line 187's shifted test as written and
      its intended flag says whether the exit code of the lint run is one of
      the mode's; a JSON file is recorded only after its wrapper was written
      and removed again. */
  lemma LintStepMeaning(conf: Conf, env: Env, path: string, suffix: string)
    ensures LintStep(conf, env, path, suffix).Checked? ==>
              var r := LintStep(conf, env, path, suffix).result;
              var exec := env.lint(conf.lint, LintTarget(env, path, suffix));
              && r.absolute == path
              && r.name == Basename(path)
              && exec.Ran?
              && (r.status <==> ExitCode(exec.status) in conf.returnCodesOk)
              && (r.passed <==> exec.status in conf.returnCodesOk)
              && (NeedsWrapper(suffix) ==> env.wrapperWritten(path) && env.wrapperRemoved(LintTarget(env, path, suffix)))
  {
    var s := LintStep(conf, env, path, suffix);
    var target := LintTarget(env, path, suffix);
    if s.Checked? {
      assert !(NeedsWrapper(suffix) && !env.wrapperWritten(path));
      var exec := env.lint(conf.lint, target);
      assert exec.Ran?;
      assert !(NeedsWrapper(suffix) && !env.wrapperRemoved(target));
      assert s.result == FileResult(path, Basename(path), "File " + path + ":\n" + exec.output,
                                    Passes(exec.status, conf.returnCodesOk), Accepts(exec.status, conf.returnCodesOk));
    }
  }

  /** `processFile` as a function value, the form `run` is written over. */
  function StepOf(conf: Conf, env: Env): string -> Step
  {
    path => StepFor(conf, env, path)
  }

  /** The state `processFile` and `run` leave behind: the results appended,
      the last selected path looked at (`$recentDir` is its directory) and
      the fatal condition that stopped the run, if any. */
  datatype Progress = Progress(results: seq<FileResult>, lastVisited: Option<string>, fatal: Option<Error>)

  const Start: Progress := Progress([], None, None)

  /** One more path: `$recentDir` moves before the lint runs, so an aborted
      selected path counts as looked at too. */
  function Advance(p: Progress, path: string, step: Step): Progress
  {
    match step
    case Skip => p
    case Checked(r) => Progress(p.results + [r], Some(path), None)
    case Abort(e) => Progress(p.results, Some(path), Some(e))
  }

  /** `run` over the entries of one walk, up to the first fatal condition. */
  function Walk(step: string -> Step, paths: seq<string>): (p: Progress)
    ensures |p.results| <= |paths|
  {
    if paths == [] then Start
    else
      var p := Walk(step, paths[..|paths| - 1]);
      if p.fatal.Some? then p
      else Advance(p, paths[|paths| - 1], step(paths[|paths| - 1]))
  }

  /** One progress followed by another. */
  function Then(a: Progress, b: Progress): Progress
  {
    Progress(a.results + b.results, if b.lastVisited.Some? then b.lastVisited else a.lastVisited, b.fatal)
  }

  /** The root loop of lines 427-434: each root is validated only when its
      turn comes, so the roots before a bad one have been walked already. */
  function RunRoots(step: string -> Step, listing: string -> Option<seq<string>>, roots: seq<string>): (p: Progress)
    ensures |p.results| <= |AllEntries(listing, roots)|
  {
    if roots == [] then Start
    else
      var p := RunRoots(step, listing, roots[..|roots| - 1]);
      var root := roots[|roots| - 1];
      if p.fatal.Some? then p
      else
        match listing(root)
        case None => p.(fatal := Some(PathNotFound(root)))
        case Some(entries) => Then(p, Walk(step, entries))
  }

  /** The paths a step does not skip, in order. */
  function Visited(step: string -> Step, paths: seq<string>): (r: seq<string>)
    ensures |r| <= |paths|
  {
    if paths == [] then []
    else
      Visited(step, paths[..|paths| - 1]) +
      (if step(paths[|paths| - 1]).Skip? then [] else [paths[|paths| - 1]])
  }

  /** The paths `processFile` selects, in order. */
  function SelectedPaths(conf: Conf, matches: (string, string) -> bool, paths: seq<string>): (r: seq<string>)
    ensures |r| <= |paths|
    ensures forall x :: x in r ==> x in paths && Selected(conf, matches, x)
  {
    if paths == [] then []
    else
      var init := paths[..|paths| - 1];
      var last := paths[|paths| - 1];
      assert forall x :: x in init ==> x in paths;
      SelectedPaths(conf, matches, init) + (if Selected(conf, matches, last) then [last] else [])
  }

  /** `processFile` visits exactly the selected paths. */
  lemma {:induction false} VisitedAreSelected(conf: Conf, env: Env, paths: seq<string>)
    ensures Visited(StepOf(conf, env), paths) == SelectedPaths(conf, env.matches, paths)
  {
    if paths != [] {
      VisitedAreSelected(conf, env, paths[..|paths| - 1]);
      StepSkipsUnselected(conf, env, paths[|paths| - 1]);
    }
  }

  /** Every entry of every root, in walking order (nothing for a bad root). */
  function AllEntries(listing: string -> Option<seq<string>>, roots: seq<string>): seq<string>
  {
    if roots == [] then []
    else
      AllEntries(listing, roots[..|roots| - 1]) +
      match listing(roots[|roots| - 1])
      case None => []
      case Some(entries) => entries
  }

  /** The `filename_absolute` of each result, in order. */
  function Absolutes(results: seq<FileResult>): (r: seq<string>)
    ensures |r| == |results|
    ensures forall i :: 0 <= i < |results| ==> r[i] == results[i].absolute
  {
    seq(|results|, i requires 0 <= i < |results| => results[i].absolute)
  }

  /** The step a result came from: a recorded result is what checking its
      own path produced. */
  predicate FromOwnPath(step: string -> Step, results: seq<FileResult>)
  {
    forall r :: r in results ==> step(r.absolute) == Checked(r)
  }

  /** `run` over one walk: the results are exactly the visited paths in
      order, one each, unless a fatal condition cut the run short, in which
      case they are the visited paths before the one that failed; the last
      path visited is recorded, and there is none iff no path was visited. This needs only that a checked result names its own
      path. */
  lemma {:induction false} WalkVisits(step: string -> Step, paths: seq<string>)
    requires forall x :: step(x).Checked? ==> step(x).result.absolute == x
    ensures FromOwnPath(step, Walk(step, paths).results)
    ensures var p := Walk(step, paths);
            var seen := Visited(step, paths);
            p.fatal.None? ==>
              Absolutes(p.results) == seen &&
              p.lastVisited == (if seen == [] then None else Some(seen[|seen| - 1]))
    ensures var p := Walk(step, paths);
            var seen := Visited(step, paths);
            p.fatal.Some? ==>
              |p.results| < |seen| &&
              Absolutes(p.results) == seen[..|p.results|] &&
              p.lastVisited == Some(seen[|p.results|]) &&
              step(seen[|p.results|]) == Abort(p.fatal.value)
  {
    if paths != [] {
      var init := paths[..|paths| - 1];
      var x := paths[|paths| - 1];
      WalkVisits(step, init);
      var q := Walk(step, init);
      var seenInit := Visited(step, init);
      var seen := Visited(step, paths);
      if q.fatal.None? {
        match step(x)
        case Skip =>
        case Checked(r) =>
          assert Absolutes(q.results + [r]) == Absolutes(q.results) + [x];
        case Abort(e) =>
          assert seen[|q.results|] == x;
      } else {
        assert seen[..|q.results|] == seenInit[..|q.results|];
      }
    }
  }

  /** One more entry of a walk that has not failed yet. */
  lemma WalkNext(step: string -> Step, paths: seq<string>, i: nat)
    requires i < |paths|
    requires Walk(step, paths[..i]).fatal.None?
    ensures Walk(step, paths[..i + 1]) == Advance(Walk(step, paths[..i]), paths[i], step(paths[i]))
  {
    TakeTake(paths, i);
  }

  /** The effect of one `processFile` call on `$results` and `$recentDir`,
      given the step it took. */
  predicate Committed(step: Step, path: string, dirOf: string -> string,
                      before: seq<FileResult>, dirBefore: string,
                      after: seq<FileResult>, dirAfter: string, fatal: Option<Error>)
  {
    match step
    case Skip => after == before && dirAfter == dirBefore && fatal.None?
    case Checked(r) => after == before + [r] && dirAfter == dirOf(path) && fatal.None?
    case Abort(e) => after == before && dirAfter == dirOf(path) && fatal == Some(e)
  }

  /** `$results` and `$recentDir` agree with a walk that has not failed yet. */
  predicate Tracks(p: Progress, dirOf: string -> string, base: seq<FileResult>, baseDir: string,
                   results: seq<FileResult>, recentDir: string)
  {
    results == base + p.results &&
    recentDir == (if p.lastVisited.Some? then dirOf(p.lastVisited.value) else baseDir)
  }

  /** One `processFile` call keeps the state in step with the walk. */
  lemma WalkCommit(step: string -> Step, dirOf: string -> string, entries: seq<string>, i: nat,
                   base: seq<FileResult>, baseDir: string,
                   before: seq<FileResult>, dirBefore: string,
                   after: seq<FileResult>, dirAfter: string, fatal: Option<Error>)
    requires i < |entries|
    requires Walk(step, entries[..i]).fatal.None?
    requires Tracks(Walk(step, entries[..i]), dirOf, base, baseDir, before, dirBefore)
    requires Committed(step(entries[i]), entries[i], dirOf, before, dirBefore, after, dirAfter, fatal)
    ensures Tracks(Walk(step, entries[..i + 1]), dirOf, base, baseDir, after, dirAfter)
    ensures fatal == Walk(step, entries[..i + 1]).fatal
  {
    WalkNext(step, entries, i);
  }

  /** Two walks one after the other leave the state the two leave in turn. */
  lemma TracksThen(a: Progress, b: Progress, dirOf: string -> string,
                   base: seq<FileResult>, baseDir: string,
                   mid: seq<FileResult>, midDir: string,
                   after: seq<FileResult>, dirAfter: string)
    requires Tracks(a, dirOf, base, baseDir, mid, midDir)
    requires Tracks(b, dirOf, mid, midDir, after, dirAfter)
    ensures Tracks(Then(a, b), dirOf, base, baseDir, after, dirAfter)
  {
  }

  /** One more root of a root loop that has not failed yet. */
  lemma RootsNext(step: string -> Step, listing: string -> Option<seq<string>>, roots: seq<string>, i: nat)
    requires i < |roots|
    requires RunRoots(step, listing, roots[..i]).fatal.None?
    ensures RunRoots(step, listing, roots[..i + 1]) ==
              match listing(roots[i])
              case None => RunRoots(step, listing, roots[..i]).(fatal := Some(PathNotFound(roots[i])))
              case Some(entries) => Then(RunRoots(step, listing, roots[..i]), Walk(step, entries))
  {
    TakeTake(roots, i);
  }

  /** A fatal condition ends the walk: later entries change nothing. */
  lemma {:induction false} WalkStops(step: string -> Step, done: seq<string>, rest: seq<string>)
    requires Walk(step, done).fatal.Some?
    ensures Walk(step, done + rest) == Walk(step, done)
    decreases |rest|
  {
    if rest == [] {
      assert done + rest == done;
    } else {
      InitOfAppend(done, rest);
      WalkStops(step, done, rest[..|rest| - 1]);
    }
  }

  /** A fatal condition ends the root loop: later roots are not looked at. */
  lemma {:induction false} RootsStop(step: string -> Step, listing: string -> Option<seq<string>>,
                                     done: seq<string>, rest: seq<string>)
    requires RunRoots(step, listing, done).fatal.Some?
    ensures RunRoots(step, listing, done + rest) == RunRoots(step, listing, done)
    decreases |rest|
  {
    if rest == [] {
      assert done + rest == done;
    } else {
      InitOfAppend(done, rest);
      RootsStop(step, listing, done, rest[..|rest| - 1]);
    }
  }

  /** A walk that has failed, or has run out of entries, is over. */
  lemma WalkEnds(step: string -> Step, paths: seq<string>, i: nat)
    requires i <= |paths|
    requires i == |paths| || Walk(step, paths[..i]).fatal.Some?
    ensures Walk(step, paths) == Walk(step, paths[..i])
  {
    if i < |paths| {
      WalkStops(step, paths[..i], paths[i..]);
      TakeDrop(paths, i);
    } else {
      assert paths[..i] == paths;
    }
  }

  /** A root loop that has failed, or has run out of roots, is over. */
  lemma RootsEnd(step: string -> Step, listing: string -> Option<seq<string>>, roots: seq<string>, i: nat)
    requires i <= |roots|
    requires i == |roots| || RunRoots(step, listing, roots[..i]).fatal.Some?
    ensures RunRoots(step, listing, roots) == RunRoots(step, listing, roots[..i])
  {
    if i < |roots| {
      RootsStop(step, listing, roots[..i], roots[i..]);
      TakeDrop(roots, i);
    } else {
      assert roots[..i] == roots;
    }
  }

  /** The first root that is not a directory aborts the run, whatever the
      roots after it; the roots before it have been walked. */
  lemma FirstBadRootAborts(step: string -> Step, listing: string -> Option<seq<string>>,
                           roots: seq<string>, j: nat)
    requires j < |roots|
    requires RunRoots(step, listing, roots[..j]).fatal.None?
    requires listing(roots[j]).None?
    ensures RunRoots(step, listing, roots).fatal == Some(PathNotFound(roots[j]))
    ensures RunRoots(step, listing, roots).results == RunRoots(step, listing, roots[..j]).results
  {
    var p := RunRoots(step, listing, roots[..j]);
    var q := RunRoots(step, listing, roots[..j + 1]);
    assert q == p.(fatal := Some(PathNotFound(roots[j]))) by {
      RootsNext(step, listing, roots, j);
    }
    assert RunRoots(step, listing, roots) == q by {
      RootsStop(step, listing, roots[..j + 1], roots[j + 1..]);
      TakeDrop(roots, j + 1);
    }
  }

  /** Visiting distributes over concatenated walks. */
  lemma {:induction false} VisitedAppend(step: string -> Step, a: seq<string>, b: seq<string>)
    ensures Visited(step, a + b) == Visited(step, a) + Visited(step, b)
    decreases |b|
  {
    if b == [] {
      assert a + b == a;
    } else {
      var init := b[..|b| - 1];
      InitOfAppend(a, b);
      VisitedAppend(step, a, init);
    }
  }

  /** A run over several roots that completes visits every root and records
      exactly the visited entries of all the roots, in order. */
  lemma {:induction false} RootsVisit(step: string -> Step, listing: string -> Option<seq<string>>, roots: seq<string>)
    requires forall x :: step(x).Checked? ==> step(x).result.absolute == x
    ensures RunRoots(step, listing, roots).fatal.None? ==>
              (forall r :: r in roots ==> listing(r).Some?) &&
              Absolutes(RunRoots(step, listing, roots).results) == Visited(step, AllEntries(listing, roots))
  {
    if roots != [] {
      var init := roots[..|roots| - 1];
      var root := roots[|roots| - 1];
      var p := RunRoots(step, listing, init);
      var q := RunRoots(step, listing, roots);
      if q.fatal.None? {
        assert p.fatal.None? && listing(root).Some?;
        var entries := listing(root).value;
        var w := Walk(step, entries);
        assert q == Then(p, w);
        assert AllEntries(listing, roots) == AllEntries(listing, init) + entries;
        RootsVisit(step, listing, init);
        WalkVisits(step, entries);
        VisitedAppend(step, AllEntries(listing, init), entries);
        AbsolutesAppend(p.results, w.results);
        assert forall r :: r in roots ==> r in init || r == root;
      }
    }
  }

  /** The absolute names of two result lists one after the other. */
  lemma AbsolutesAppend(a: seq<FileResult>, b: seq<FileResult>)
    ensures Absolutes(a + b) == Absolutes(a) + Absolutes(b)
  {
  }

  /** Every result of the root loop is what checking its own path produced. */
  lemma {:induction false} RootsFromOwnPath(step: string -> Step, listing: string -> Option<seq<string>>,
                                            roots: seq<string>)
    requires forall x :: step(x).Checked? ==> step(x).result.absolute == x
    ensures FromOwnPath(step, RunRoots(step, listing, roots).results)
  {
    if roots != [] {
      var init := roots[..|roots| - 1];
      var root := roots[|roots| - 1];
      RootsFromOwnPath(step, listing, init);
      var p := RunRoots(step, listing, init);
      if p.fatal.None? && listing(root).Some? {
        var w := Walk(step, listing(root).value);
        WalkVisits(step, listing(root).value);
        assert RunRoots(step, listing, roots).results == p.results + w.results;
      }
    }
  }

  /** The lint command runs once per selected entry of the roots and on
      nothing else: a complete run records exactly the selected entries of
      all the roots, in traversal order. */
  lemma RunRecordsSelected(conf: Conf, env: Env, roots: seq<string>)
    ensures var p := RunRoots(StepOf(conf, env), env.listing, roots);
            p.fatal.None? ==>
              Absolutes(p.results) == SelectedPaths(conf, env.matches, AllEntries(env.listing, roots))
  {
    forall x | StepOf(conf, env)(x).Checked?
      ensures StepOf(conf, env)(x).result.absolute == x
    {
      var s := SelectedSuffix(conf, env.matches, x);
      LintStepMeaning(conf, env, x, s.value);
    }
    RootsVisit(StepOf(conf, env), env.listing, roots);
    VisitedAreSelected(conf, env, AllEntries(env.listing, roots));
  }

  /** The "perform test" part of `processFile`: preProcess, the lint run,
      postProcess and the result record, stopping at the first failure. */
  method PerformTest(path: string, suffix: string, conf: Conf, env: Env) returns (step: Step)
    ensures step == LintStep(conf, env, path, suffix)
    ensures !step.Skip?
  {
    var target := path;
    if NeedsWrapper(suffix) {
      if !env.wrapperWritten(path) {
        return Abort(WrapperFailed(path));
      }
      target := env.wrapperFile(path);
    }
    var exec := env.lint(conf.lint, target);
    if exec.SpawnFailed? {
      return Abort(CannotExecute(conf.lint, target));
    }
    if exec.ReadFailed? {
      return Abort(CannotReadOutput(conf.lint, target));
    }
    var status := Passes(exec.status, conf.returnCodesOk);
    var passed := Accepts(exec.status, conf.returnCodesOk);
    if NeedsWrapper(suffix) && !env.wrapperRemoved(target) {
      return Abort(CannotRemoveWrapper(target));
    }
    step := Checked(FileResult(path, Basename(path), "File " + path + ":\n" + exec.output, status, passed));
  }

  /** The script's globals `$results` and `$recentDir`, which `processFile`
      updates in place. */
  class Checker {
    var results: seq<FileResult>
    var recentDir: string

    constructor ()
      ensures results == [] && recentDir == ""
    {
      results := [];
      recentDir := "";
    }

    /** `processFile`: a skipped path changes nothing; a selected one moves
        `$recentDir` to its directory and, unless a fatal condition stops the
        run, appends exactly one result. */
    method ProcessFile(path: string, conf: Conf, env: Env) returns (fatal: Option<Error>)
      modifies this
      ensures Committed(StepFor(conf, env, path), path, Dirname, old(results), old(recentDir), results, recentDir, fatal)
    {
      ghost var selected := SelectedSuffix(conf, env.matches, path);
      var basename := Basename(path);
      var skip := PatternSkip(conf.excludes, conf.includes, env.matches, path);
      if skip {
        StepForIs(conf, env, path, None);
        return None;
      }
      var suffix := Suffix(basename);
      if suffix.None? || suffix.value !in conf.suffixes {
        StepForIs(conf, env, path, None);
        return None;
      }
      if recentDir != Dirname(path) {
        recentDir := Dirname(path);
      }
      var step := PerformTest(path, suffix.value, conf, env);
      StepForIs(conf, env, path, suffix);
      assert StepFor(conf, env, path) == step;
      match step {
        case Checked(r) =>
          results := results + [r];
          fatal := None;
        case Abort(e) =>
          fatal := Some(e);
      }
    }
    /** `run`: `processFile` on every entry of one walk, in order. */
    method Run(entries: seq<string>, conf: Conf, env: Env) returns (fatal: Option<Error>)
      modifies this
      ensures fatal == Walk(StepOf(conf, env), entries).fatal
      ensures Tracks(Walk(StepOf(conf, env), entries), Dirname, old(results), old(recentDir), results, recentDir)
    {
      fatal := None;
      var i := 0;
      while i < |entries| && fatal.None?
        invariant 0 <= i <= |entries|
        invariant fatal == Walk(StepOf(conf, env), entries[..i]).fatal
        invariant Tracks(Walk(StepOf(conf, env), entries[..i]), Dirname, old(results), old(recentDir), results, recentDir)
      {
        ghost var before := results;
        ghost var dirBefore := recentDir;
        fatal := ProcessFile(entries[i], conf, env);
        WalkCommit(StepOf(conf, env), Dirname, entries, i, old(results), old(recentDir),
                   before, dirBefore, results, recentDir, fatal);
        i := i + 1;
      }
      WalkEnds(StepOf(conf, env), entries, i);
    }

    /** The root loop of the main program. */
    method CheckRoots(roots: seq<string>, conf: Conf, env: Env) returns (fatal: Option<Error>)
      modifies this
      ensures fatal == RunRoots(StepOf(conf, env), env.listing, roots).fatal
      ensures Tracks(RunRoots(StepOf(conf, env), env.listing, roots), Dirname, old(results), old(recentDir), results, recentDir)
    {
      fatal := None;
      var i := 0;
      while i < |roots| && fatal.None?
        invariant 0 <= i <= |roots|
        invariant fatal == RunRoots(StepOf(conf, env), env.listing, roots[..i]).fatal
        invariant Tracks(RunRoots(StepOf(conf, env), env.listing, roots[..i]), Dirname, old(results), old(recentDir), results, recentDir)
      {
        RootsNext(StepOf(conf, env), env.listing, roots, i);
        var listing := env.listing(roots[i]);
        if listing.None? {
          fatal := Some(PathNotFound(roots[i]));
        } else {
          ghost var before := results;
          ghost var dirBefore := recentDir;
          fatal := Run(listing.value, conf, env);
          TracksThen(RunRoots(StepOf(conf, env), env.listing, roots[..i]), Walk(StepOf(conf, env), listing.value),
                     Dirname, old(results), old(recentDir), before, dirBefore, results, recentDir);
        }
        i := i + 1;
      }
      RootsEnd(StepOf(conf, env), env.listing, roots, i);
    }
  }
}

=== FILE: Seqs.dfy ===
/** Small facts about slicing sequences, stated once so that the proofs
    about the script's loops can use them without reasoning about
    sequence equality in a large context. */
module Seqs {

  /** Cutting a sequence at `k` and joining the pieces gives it back. */
  lemma TakeDrop<T>(s: seq<T>, k: nat)
    requires k <= |s|
    ensures s[..k] + s[k..] == s
  {
  }

  /** The prefix of a one-longer prefix. */
  lemma TakeTake<T>(s: seq<T>, i: nat)
    requires i < |s|
    ensures s[..i + 1][..i] == s[..i]
  {
  }

  /** Dropping the last element of a concatenation drops it from the right part. */
  lemma InitOfAppend<T>(a: seq<T>, b: seq<T>)
    requires b != []
    ensures (a + b)[..|a + b| - 1] == a + b[..|b| - 1]
  {
  }
}

=== FILE: SyntaxCheck.dfy ===
/** The main program of `syntax-check.php`: the options are read into
    `$conf`, the mode's defaults fill what was not given, every root is
    walked and its selected files linted, and the reports are made from
    `$results`. Any fatal condition ends the run with an error and no
    report. */
module SyntaxCheck {

  import opened Wrappers
  import opened Errors
  import opened Modes
  import opened Config
  import opened Filter
  import opened Runner
  import opened Report

  /** A run that got through every root: the resolved configuration and
      `$results`. */
  datatype Finished = Finished(conf: Conf, results: seq<FileResult>)

  /** What the script hands over at the end: the file count it writes out, the JUnit
      suite and, when an output directory is set, the per-file outputs. */
  datatype Reports = Reports(checked: nat, suite: Suite, files: Option<seq<(string, string)>>)

  /** The run as a whole: the options, then the defaults, then the roots. */
  function Outcome(options: seq<(string, OptValue)>, env: Env): (o: Result<Finished, Error>)
    ensures o.Ok? ==> var conf := o.value.conf;
                      && conf.mode in ModeNames
                      && !Falsy(conf.lint) && conf.suffixes != []
                      && conf.returnCodesOk == Lookup(conf.mode).value.returnCodesOk
                      && |o.value.results| <= |AllEntries(env.listing, conf.paths)|
  {
    ApplyAllKeepsInvariants(Defaults, options);
    match ApplyAll(Defaults, options)
    case Err(e) => Err(e)
    case Ok(given) =>
      var conf := Resolve(given);
      var p := RunRoots(StepOf(conf, env), env.listing, conf.paths);
      if p.fatal.Some? then Err(p.fatal.value) else Ok(Finished(conf, p.results))
  }

  /** A result was made for a selected path and its lint run completed; its
      `status` is line 187's shifted test as written, and its intended flag
      says whether the exit code of that run is one of the configured ones. */
  predicate ResultMeaning(conf: Conf, env: Env, r: FileResult)
  {
    var suffix := SelectedSuffix(conf, env.matches, r.absolute);
    suffix.Some? &&
    var exec := env.lint(conf.lint, LintTarget(env, r.absolute, suffix.value));
    exec.Ran? && (r.status <==> Passes(exec.status, conf.returnCodesOk)) && (r.passed <==> Accepts(exec.status, conf.returnCodesOk))
  }

  /** A run that finishes has linted exactly the selected entries of all the
      roots, once each and in walking order, with the lint command and exit
      codes of the resolved configuration; each result's `status` is the
      shifted test of line 187 on its own lint run, and its intended flag
      says whether that run's exit code is one of the mode's. */
  lemma OutcomeRecordsSelected(options: seq<(string, OptValue)>, env: Env)
    ensures var o := Outcome(options, env);
            o.Ok? ==>
              var conf := o.value.conf;
              && conf.mode in ModeNames
              && conf.returnCodesOk == Lookup(conf.mode).value.returnCodesOk
              && Absolutes(o.value.results) ==
                   SelectedPaths(conf, env.matches, AllEntries(env.listing, conf.paths))
              && forall r :: r in o.value.results ==> ResultMeaning(conf, env, r)
  {
    ApplyAllKeepsInvariants(Defaults, options);
    var o := Outcome(options, env);
    if o.Ok? {
      var conf := o.value.conf;
      var step := StepOf(conf, env);
      RunRecordsSelected(conf, env, conf.paths);
      forall x | step(x).Checked?
        ensures step(x).result.absolute == x
      {
        LintStepMeaning(conf, env, x, SelectedSuffix(conf, env.matches, x).value);
      }
      RootsFromOwnPath(step, env.listing, conf.paths);
      forall r | r in o.value.results
        ensures ResultMeaning(conf, env, r)
      {
        assert step(r.absolute) == Checked(r);
        LintStepMeaning(conf, env, r.absolute, SelectedSuffix(conf, env.matches, r.absolute).value);
      }
    }
  }

  /** In a finished run the intended flag is the stricter one: a result it
      passes, the shifted test of line 187 passes too. */
  lemma IntendedFlagStricter(options: seq<(string, OptValue)>, env: Env)
    ensures var o := Outcome(options, env);
            o.Ok? ==> forall r :: r in o.value.results ==> (r.passed ==> r.status)
  {
    var o := Outcome(options, env);
    if o.Ok? {
      OutcomeRecordsSelected(options, env);
      var conf := o.value.conf;
      forall r | r in o.value.results
        ensures r.passed ==> r.status
      {
        assert ResultMeaning(conf, env, r);
        var suffix := SelectedSuffix(conf, env.matches, r.absolute);
        var exec := env.lint(conf.lint, LintTarget(env, r.absolute, suffix.value));
        IntendedStricter(conf.mode, exec.status);
      }
    }
  }

  /** The main program: `$conf` from the options, the root loop over a fresh
      `$results`, then `generateXML` and, when `outputDir` is truthy,
      `generateOutputDir`. */
  method Execute(options: seq<(string, OptValue)>, env: Env) returns (r: Result<Reports, Error>)
    ensures r.Err? <==> Outcome(options, env).Err?
    ensures r.Err? ==> r.error == Outcome(options, env).error
    ensures r.Ok? ==>
              var f := Outcome(options, env).value;
              && r.value.checked == |f.results|
              && r.value.suite.name == f.conf.mode + "SyntaxTest"
              && r.value.suite.errors == 0
              && r.value.suite.tests == |f.results|
              && r.value.suite.failures == FailedCount(f.results)
              && r.value.suite.cases == Cases(f.results)
              && (r.value.files.Some? <==> !Falsy(f.conf.outputDir))
              && (r.value.files.Some? ==>
                    |r.value.files.value| == |f.results| &&
                    forall i :: 0 <= i < |f.results| ==>
                      r.value.files.value[i] == (ArtefactName(f.results[i].absolute), f.results[i].info))
  {
    var parsed := ParseOptions(options);
    if parsed.Err? {
      return Err(parsed.error);
    }
    var conf := Resolve(parsed.value);
    ghost var p := RunRoots(StepOf(conf, env), env.listing, conf.paths);
    assert Outcome(options, env) == if p.fatal.Some? then Err(p.fatal.value) else Ok(Finished(conf, p.results));
    var checker := new Checker();
    var fatal := checker.CheckRoots(conf.paths, conf, env);
    if fatal.Some? {
      return Err(fatal.value);
    }
    var results := checker.results;
    assert results == p.results;
    var suite := GenerateXml(results, conf.mode);
    var files := None;
    if !Falsy(conf.outputDir) {
      var written := OutputFiles(results);
      files := Some(written);
    }
    r := Ok(Reports(|results|, suite, files));
  }
}

=== FILE: Text.dfy ===
/** The PHP string primitives the script relies on, for byte strings seen as
    `seq<char>`: `trim`, the PCRE class `\s`, `strtolower` and `strtr`. */
module Text {

  /** The characters PHP's `trim` strips by default: space, tab, newline,
      carriage return, NUL and vertical tab. */
  const TrimChars: set<char> := {' ', '\t', '\n', '\r', '\0', '\U{B}'}

  /** The characters matched by `\s` in the PCRE bundled with PHP 5.3 (before
      PCRE 8.34 `\s` did not include vertical tab): space, tab, newline, form
      feed and carriage return. */
  const PcreSpace: set<char> := {' ', '\t', '\n', '\U{C}', '\r'}

  /** `preg_match('/^\s*$/', s)`: the string holds only `\s` characters.
      The two character sets differ (form feed is `\s` but not trimmed, NUL
      and vertical tab are trimmed but not `\s`); outside those three, an
      entry is blank exactly when `trim` leaves nothing of it. */
  predicate IsBlank(s: string)
    ensures IsBlank(s) && '\U{C}' !in s ==> Trim(s) == []
    ensures !IsBlank(s) && '\0' !in s && '\U{B}' !in s ==> Trim(s) != []
  {
    forall i :: 0 <= i < |s| ==> s[i] in PcreSpace
  }

  /** PHP `ltrim` with the default character list. */
  function TrimLeft(s: string): (r: string)
    ensures |r| <= |s| && r == s[|s| - |r|..]
    ensures r == [] || r[0] !in TrimChars
    ensures forall k :: 0 <= k < |s| - |r| ==> s[k] in TrimChars
  {
    if s != [] && s[0] in TrimChars then TrimLeft(s[1..]) else s
  }

  /** PHP `rtrim` with the default character list. */
  function TrimRight(s: string): (r: string)
    ensures |r| <= |s| && r == s[..|r|]
    ensures r == [] || r[|r| - 1] !in TrimChars
    ensures forall k :: |r| <= k < |s| ==> s[k] in TrimChars
  {
    if s != [] && s[|s| - 1] in TrimChars then TrimRight(s[..|s| - 1]) else s
  }

  /** `r` is the text of `s` from index `i` on, with trim characters only
      before it and only after it. */
  predicate StrippedAt(s: string, i: int, r: string)
  {
    0 <= i <= |s| - |r| && r == s[i..i + |r|] &&
    (forall k :: 0 <= k < i ==> s[k] in TrimChars) &&
    (forall k :: i + |r| <= k < |s| ==> s[k] in TrimChars)
  }

  /** PHP `trim`: the result neither starts nor ends with a trim character,
      and it is empty exactly when `s` holds nothing else (`TrimIsSlice`
      shows it is the piece of `s` between the two runs it strips). */
  function Trim(s: string): (r: string)
    ensures |r| <= |s|
    ensures r == [] || (r[0] !in TrimChars && r[|r| - 1] !in TrimChars)
    ensures r == [] <==> forall k :: 0 <= k < |s| ==> s[k] in TrimChars
  {
    var left := TrimLeft(s);
    assert forall k :: 0 <= k < |left| ==> left[k] == s[|s| - |left| + k];
    TrimRight(left)
  }

  /** `trim` removes a run of trim characters at the front and one at the
      back of `s`, and nothing else: the result is the slice of `s` between
      them. */
  lemma TrimIsSlice(s: string)
    ensures exists i :: StrippedAt(s, i, Trim(s))
  {
    var left := TrimLeft(s);
    var i := |s| - |left|;
    var r := TrimRight(left);
    assert left == s[i..];
    assert r == s[i..i + |r|];
    forall k | i + |r| <= k < |s|
      ensures s[k] in TrimChars
    {
      assert s[k] == left[k - i];
    }
    assert Trim(s) == r;
    assert StrippedAt(s, i, r);
  }

  /** Trimming a trimmed string changes nothing. */
  lemma {:induction false} TrimIdempotent(s: string)
    ensures Trim(Trim(s)) == Trim(s)
  {
    var t := Trim(s);
    if t != [] {
      assert TrimLeft(t) == t;
      assert TrimRight(t) == t;
    }
  }

  /** A string that neither starts nor ends with a trim character is its own
      `trim`. */
  lemma TrimKeeps(s: string)
    ensures s == [] || (s[0] !in TrimChars && s[|s| - 1] !in TrimChars) ==> Trim(s) == s
  {
    var r := Trim(s);
    TrimIsSlice(s);
    var i :| StrippedAt(s, i, r);
    if s != [] && s[0] !in TrimChars && s[|s| - 1] !in TrimChars {
      assert i == 0;
      assert i + |r| == |s|;
    }
  }

  predicate IsUpper(c: char)
  {
    'A' <= c <= 'Z'
  }

  /** `strtolower` in the C locale: only the ASCII letters A-Z change. */
  function Lower(s: string): (r: string)
    ensures |r| == |s|
    ensures forall i :: 0 <= i < |r| ==> !IsUpper(r[i])
    ensures forall i :: 0 <= i < |s| && !IsUpper(s[i]) ==> r[i] == s[i]
    ensures forall i :: 0 <= i < |s| && IsUpper(s[i]) ==> r[i] as int == s[i] as int + 32
  {
    if s == [] then []
    else
      var c := if IsUpper(s[0]) then (s[0] as int + 32) as char else s[0];
      [c] + Lower(s[1..])
  }

  /** `strtr(s, from, to)` with one-character arguments: every `from` becomes
      `to`, every other character stays where it is. */
  function Translate(s: string, from: char, to: char): (r: string)
    ensures |r| == |s|
    ensures from != to ==> from !in r
    ensures forall i :: 0 <= i < |s| && s[i] != from ==> r[i] == s[i]
    ensures forall i :: 0 <= i < |s| && s[i] == from ==> r[i] == to
  {
    seq(|s|, i requires 0 <= i < |s| => if s[i] == from then to else s[i])
  }

  /** On strings that do not already contain `to`, the translation loses
      nothing: two different inputs give two different outputs. */
  lemma TranslateInjective(a: string, b: string, from: char, to: char)
    requires to !in a && to !in b
    requires Translate(a, from, to) == Translate(b, from, to)
    ensures a == b
  {
    var r := Translate(a, from, to);
    forall i | 0 <= i < |a|
      ensures a[i] == b[i]
    {
      assert r[i] == Translate(b, from, to)[i];
      assert a[i] in a;
      assert b[i] in b;
    }
  }
}

=== FILE: Wrappers.dfy ===
/** Option and Result, the failure-carrying values the rest of the model returns
    where the script would `die` or call `errorAndExit`. */
module Wrappers {

  datatype Option<+T> = None | Some(value: T)

  datatype Result<+T, +E> = Ok(value: T) | Err(error: E)
}
